=== FILE: README.md ===
# Boi Gordo Investimentos — a verified model of the position engine

Boi Gordo Investimentos is a browser application for following live-cattle
futures (BGI contracts, 330 arrobas each). The user records purchases
(`Compra`) and sales (`Venda`) of contracts per reference month
(`BGIJ25` … `BGIZ25`). From that list the application derives the open
positions, the liquidated (closed) positions and a set of performance metrics.
It also shows charts and imports transactions from a spreadsheet.

This project models, in Dafny, the parts of the application that compute
something:

- **The engine of `calcularPosicoes`** (`data_api.js`).
  - The transactions are sorted by date and replayed.
  - Each reference keeps a signed balance (`saldo`), a weighted average price
    (`precoMedio`) and an entry date (`dataEntrada`).
  - A trade against the open side closes up to the open size and pushes one
    liquidation record.
  - A larger trade reverses the position at the trade's price.
  - Finally one open position is listed per reference with a nonzero balance.
  - Modules `Transacoes` (the sort and the chronological insertion), `Motor`
    (one step, also written as the source's in-place update) and `Posicoes`
    (the replay and the open-position list).
- **The global state of `data_api.js`** as the class `DadosApi.Carteira`. Its
  fields are `precos`, `transacoes`, `posicoesAbertas` and
  `posicoesLiquidadas`. Its methods are `calcularPosicoes`,
  `adicionarTransacao`, `liquidarPosicao`, `atualizarPrecos`, `simularPreco`
  and `resetarDados`, plus the state effect of `importarDados`. The class
  invariant `Valid` says that both position lists are exactly what replaying
  the sorted transactions gives.
- **`calcularMetricas`** (module `Metricas`) with its zero-denominator guards.
- **The computations inside the user interface `js/app.js`** (module `App`):
  - `formatarData`;
  - the spreadsheet import (date conversion, `tipo` normalisation, row
    validation, counters);
  - the preview row limit;
  - the liquidation estimate.

  The JavaScript string operations they rely on are in module `Textos`:
  `split`/`join`, `trim`, `toLowerCase`, `includes` and `padStart`.
- **The data behind the dashboard charts of `js/charts.js`** (module
  `Graficos`): per-reference sums, bar colours and win/loss counts per side.

Prices and results are real numbers, and dates are day numbers. "Today" and
the runtime's conversions (`new Date`, `parseInt`, `parseFloat`) are
parameters.

## Model

| member | source | states |
|---|---|---|
| Transacoes.Oposto | data_api.js:407 | the liquidating side is the other side: Compra becomes Venda and Venda becomes Compra |
| Transacoes.PontoInsercao | data_api.js:185-188 | the scan stops at an index where every earlier transaction is dated no later than the new one and the next one (if any) is dated later |
| Transacoes.PontoInsercaoUnico | data_api.js:185-188 | those two conditions determine the stopping index uniquely |
| Transacoes.InserirConteudo | data_api.js:190 | the splice grows the list by exactly one and keeps exactly the old elements plus the new one (multiset) |
| Transacoes.InserirNoFim | data_api.js:185-190 | a transaction dated no earlier than every existing one is appended at the end |
| Transacoes.InserirPosicao | data_api.js:185-190 | in a sorted list the new transaction lands after exactly the elements dated no later than it, with the old elements unchanged on either side |
| Transacoes.Posteriores | data_api.js:185-188 | in a sorted list, an element is dated no later than d iff it stands before the insertion point for d |
| Transacoes.InserirOrdenada | data_api.js:185-190 | inserting into a date-sorted list keeps it sorted |
| Transacoes.InserirDoDia | data_api.js:185-190 | the new transaction goes after every transaction of its own day, and no day's order changes |
| Transacoes.Ordenar | data_api.js:207 | the sort keeps the number of transactions |
| Transacoes.DoDiaAposPonto | data_api.js:185-188 | in a sorted list, nothing after the insertion point for d is dated d |
| Transacoes.DoDiaMeio | data_api.js:190 | splicing t between two parts adds t to its own day's transactions, at the end when the later part holds none of that day |
| Transacoes.DoDiaPosteriores | data_api.js:185-188 | transactions all dated after d hold none of day d |
| Transacoes.OrdenarOrdena | data_api.js:207 | the date sort yields a sorted permutation of its input |
| Transacoes.OrdenarEstavel | data_api.js:207 | the sort is stable: each day's transactions keep their relative order |
| Transacoes.OrdenarOrdenada | data_api.js:207 | sorting an already sorted list changes nothing, so the sort after `adicionarTransacao` keeps the insertion order |
| Transacoes.DoDiaConcat | data_api.js:207 | the transactions of one day in a concatenation are those of each part, in order |
| Motor.AplicarTransacao | data_api.js:227-352 | the in-place update of a reference's record computes exactly the new record `Apos` and the liquidation `Liquidacao` |
| Motor.PassoConserva | data_api.js:237-351 | with a positive size, every branch moves the balance by exactly +contratos for Compra and -contratos for Venda |
| Motor.PassoCoerente | data_api.js:233-235 | a flat record has average 0 and no entry date, an open one has an entry date, and every step keeps this |
| Motor.PassoLiquida | data_api.js:241-258 | a trade against the open side emits one record: size min(contratos, abs saldo), positive and at most the open size; result (exit - average)*size*330 for a long, the reverse for a short; the closed side as tipo; nonnegative days equal to the days since entry |
| Motor.PassoParcial | data_api.js:295-316 | a trade smaller than the open opposite position reduces it and keeps its average price and entry date |
| Motor.PassoZera | data_api.js:325-330 | a trade exactly the open size leaves saldo 0, precoMedio 0 and no entry date, after one record of the whole size |
| Motor.PassoInverte | data_api.js:317-324 | a reversal records the whole prior size and opens contratos - abs(saldo) on the trade's side at the trade's price and date |
| Motor.MediaPonderadaEntre | data_api.js:280-285 | the weighted average lies between the old average and the trade price, and equals the trade price when the old size is 0 |
| Motor.PassoAcumula | data_api.js:332-350 | a same-side trade (or one from flat) emits nothing, grows the absolute balance by its size and sets the weighted average; from flat the average is the trade price and the entry date is the trade's date |
| Posicoes.ReplayPasso | data_api.js:213-353 | one more transaction is one more iteration of the `forEach` |
| Posicoes.ReplayBemFormado | data_api.js:210-225 | the map's keys are exactly the listed references, each listed once, and there is at most one record per transaction |
| Posicoes.ReplayPorReferencia | data_api.js:213-353 | a reference's record depends only on its own transactions, and the reference is present iff it has any |
| Posicoes.EvoluirConserva | data_api.js:237-351 | a reference's balance is the signed sum of its own transactions, and its record stays coherent |
| Posicoes.Conservacao | data_api.js:237-351 | after every prefix of the replay, each reference's balance is its bought contracts minus its sold ones |
| Posicoes.Historico | data_api.js:230 | a reference's own transactions are all of that reference and no more than the whole list |
| Posicoes.HistoricoCompleto | data_api.js:230 | a reference's history holds exactly the transactions of that reference, each as often as in the whole list, and nothing else |
| Posicoes.HistoricoPositivas | data_api.js:230 | if every transaction has a positive size, so does every one of a single reference |
| Posicoes.SaldoFinal | data_api.js:237-351 | after the replay a reference's balance (0 when it never traded) is the signed sum of its transactions |
| Posicoes.ReplayRegistros | data_api.js:295-312 | every record the replay emits closes a positive number of contracts and has a nonnegative holding period |
| Posicoes.PrecoAtual | data_api.js:363 | the current price is the stored price of a priced reference and 0 for one without a price |
| Posicoes.AbertaDe | data_api.js:357-391 | an open position is a Compra iff saldo > 0, has contratos = abs(saldo), the stored average, a potential result of 0 when the price is not positive and the side's result otherwise, and nonnegative days |
| Posicoes.AbertasDeCaracteriza | data_api.js:356-391 | the list holds one position per listed reference with a nonzero balance, each its `AbertaDe`, and no reference twice |
| Posicoes.AbertasDeElementos | data_api.js:356-391 | every listed position belongs to a reference with a nonzero balance and is that reference's `AbertaDe` |
| Posicoes.AbertaPresente | data_api.js:356-391 | every reference with a nonzero balance has a position |
| Posicoes.AbertasDeDistintas | data_api.js:356-391 | no reference has two positions |
| Posicoes.AbertaDaReferencia | data_api.js:356-391 | a reference has a position iff its balance is nonzero; the position is a Compra iff the balance is positive, with contratos = abs(balance) |
| Posicoes.AbertasDoReplay | data_api.js:237-391 | after the replay a reference has an open position iff its bought and sold contracts differ; an exactly closed reference leaves no phantom position |
| DadosApi.PrecosIniciais | data_api.js:13-23 | the initial table prices the nine references BGIJ25 to BGIZ25, between 270 and 350 |
| DadosApi.PrecosAtualizados | data_api.js:421-425 | known references take the new price, unknown ones are ignored, and the key set is unchanged |
| DadosApi.Remarcar | data_api.js:428-436 | re-valuing sets the current price; the potential result is the side's result at that price when it is positive and 0 otherwise; every other field is kept |
| DadosApi.Remarcadas | data_api.js:428-436 | every open position is re-valued at its own reference's price, and the list keeps its length |
| DadosApi.RemarcarTodas | data_api.js:428-436 | the in-place loop over `posicoesAbertas` yields the re-valued list |
| DadosApi.DaReferencia | data_api.js:462 | the filter keeps only positions of the given reference and is no longer than the list |
| DadosApi.DaReferenciaCompleta | data_api.js:462 | the filter keeps exactly the positions of the given reference, each as often as in the list, and nothing else |
| DadosApi.Encontrar | data_api.js:403 | `find` returns nothing iff no position has the reference, otherwise the first one that has it |
| DadosApi.ProcessarTransacoes | data_api.js:210-353 | the `forEach` over the sorted transactions builds exactly the replay's map, key order and liquidation list |
| DadosApi.MontarAbertas | data_api.js:356-392 | the loop over the map's entries builds exactly the open-position list |
| DadosApi.IndiceInsercao | data_api.js:185-188 | the `while` scan stops at the insertion point |
| DadosApi.Carteira.constructor | data_api.js:13-41 | the initial state: the default prices, no transactions and no positions |
| DadosApi.Carteira.CalcularPosicoes | data_api.js:201-393 | the transactions end up sorted by date and both lists are rebuilt from the replay at the current prices, keeping the class invariant |
| DadosApi.Carteira.AdicionarTransacao | data_api.js:185-193 | the new transaction is spliced in at the insertion point, and the positions are recomputed without reordering, as of the given day |
| DadosApi.Carteira.LiquidarPosicao | data_api.js:402-413 | the call succeeds iff the reference has an open position; it then adds the opposite-side transaction dated today and the open and closed positions are those replayed from the new list as of today; otherwise nothing changes, not even the day the positions were computed for |
| DadosApi.Carteira.AtualizarPrecos | data_api.js:420-436 | the prices are updated, every open position is re-valued, transactions and records are unchanged, and the invariant is kept |
| DadosApi.Carteira.SimularPreco | data_api.js:447-473 | the simulated result is the sum of the results of all open positions, or of those of one reference, at the given price |
| DadosApi.Carteira.ResetarDados | data_api.js:157-160 | transactions and positions are emptied, prices are kept, and the invariant still holds |
| DadosApi.Carteira.ImportarDados | data_api.js:575-584 | the data is taken iff both prices and transactions are present; then both are replaced and the open and closed positions are those replayed from the new list as of today; otherwise nothing changes, not even the day the positions were computed for |
| DadosApi.RemarcadasAbertas | data_api.js:428-436 | re-valuing the open positions at new prices gives the list `calcularPosicoes` would build at those prices |
| DadosApi.RemarcarAbertaDe | data_api.js:431-435 | re-valuing one open position at a new price is building it at that price |
| DadosApi.RemarcadasConcat | data_api.js:428-436 | re-valuing a concatenation re-values each part |
| DadosApi.SimuladoLinear | data_api.js:453-459 | raising the simulated price by d adds d*330 per net long contract |
| DadosApi.SimuladoNoPrecoAtual | data_api.js:453-459 | when every open position carries the same positive price as its current price, simulating at that price gives back the sum of their potential results |
| DadosApi.LiquidarTudo | data_api.js:402-413 | liquidating a whole open position (dated no earlier than any transaction) leaves the reference flat, adds one record and leaves no open position for it |
| Metricas.ContaPositivas | data_api.js:487 | the number of winning records is at most the number of records |
| Metricas.GanhoTotal | data_api.js:491 | the total gain is not negative |
| Metricas.SomaPerdas | data_api.js:492 | the sum of the losses is not positive |
| Metricas.SomaSpread | data_api.js:499-500 | the summed spread is not negative |
| Metricas.MaiorResultado | data_api.js:510-511 | the best result is at least 0, no result beats it, and it is 0 or some record's result |
| Metricas.MenorResultado | data_api.js:512-513 | the worst result is at most 0, no result is below it, and it is 0 or some record's result |
| Metricas.Percentual | data_api.js:488 | a count no larger than the total gives a rate in [0, 100] |
| Metricas.CalcularMetricas | data_api.js:479-548 | the accumulated result and closed contracts are the sums; the win rate is in [0,100] and 0 on an empty list, as are the average spread and time; the profit factor is at least 0 and 0 without losses; per-contract and per-day results and the ROI are 0 when their denominators are not positive; the best result is at least 0 and at least every result; the worst is at most 0 and at most every result; the drawdown is the worst loss's size |
| Metricas.MetricasVazias | data_api.js:479-548 | with no records every figure is 0 |
| Metricas.MetricasExtremos | data_api.js:510-513 | the best result is the largest of the results and 0, the worst the smallest of them and 0, each 0 or some record's result |
| Metricas.MetricasRazoes | data_api.js:487-517 | with a positive denominator, the win rate, the profit factor, the per-contract and per-day results, the average spread and time and the ROI are their quotients |
| Metricas.ResultadoDecomposto | data_api.js:491-493 | the accumulated result is the total gain plus the total loss |
| Metricas.TempoMedioNaoNegativo | data_api.js:503-507 | with nonnegative holding periods the average holding time is not negative |
| Metricas.DiasNaoNegativos | data_api.js:503 | nonnegative holding periods have a nonnegative total |
| Metricas.ContratosPositivos | data_api.js:484-496 | with positive sizes the closed-contract count is positive iff there are records |
| Metricas.MetricasDoReplay | data_api.js:479-548 | over the records the engine emits, the contract count is positive iff there are records, and the average holding time is not negative |
| Metricas.Exemplo | data_api.js:237-513 | buy 10 at 300, sell 4 at 310 and sell 10 at 290 give records of +13200 and -19800, a short of 4 at 290, a total of -6600, a 50% win rate and best/worst results of 13200/-19800 |
| Metricas.ExemploPassos | data_api.js:237-351 | the three steps of the worked case, one record at a time |
| Metricas.ExemploReplay | data_api.js:213-353 | the replay of the worked case |
| Metricas.ExemploMetricas | data_api.js:481-513 | the metrics of the worked case |
| Textos.Dividir | js/app.js:1254 | `split` gives at least one piece, and no piece holds the separator |
| Textos.DividirTamanho | js/app.js:792-793 | `split` gives one more piece than there are separators |
| Textos.JuntarDividir | js/app.js:1254 | joining the pieces of a split gives the text back |
| Textos.DividirJuntar | js/app.js:1254 | splitting a join of separator-free pieces gives the pieces back |
| Textos.DividirPrefixo | js/app.js:1254 | splitting a separator-free piece, the separator and a rest gives that piece and then the pieces of the rest |
| Textos.SemSeparador | js/app.js:1254 | a text without the separator is one piece |
| Textos.Inicio | js/app.js:808 | the leading white space of a text ends at the first character that is not white space |
| Textos.Fim | js/app.js:808 | the trailing white space of a text starts after its last character that is not white space |
| Textos.Aparar | js/app.js:808 | `trim` is no longer than its input and neither starts nor ends with white space |
| Textos.ApararRecorta | js/app.js:808 | `trim` cuts exactly the leading and the trailing white space: the result is the stretch of the input after its leading white space, and everything after it is white space |
| Textos.Minusculas | js/app.js:808 | `toLowerCase` keeps the length and lower-cases each character |
| Textos.ApararContem | js/app.js:808 | trimming does not change whether a word without white space at its ends occurs in the lower-cased text |
| Textos.ContemNoRecorte | js/app.js:808 | an occurrence in the trimmed text is an occurrence in the whole text |
| Textos.ContemNoTexto | js/app.js:808 | an occurrence in the whole text lies inside the trimmed text |
| Textos.NoRecorte | js/app.js:808 | an occurrence within the trim bounds is an occurrence in the trimmed text, shifted by the leading white space |
| Textos.Alargar | js/app.js:808 | an occurrence in a slice is an occurrence in the text |
| Textos.Deslocar | js/app.js:808 | an occurrence within a slice's bounds is an occurrence in the slice |
| Textos.ExtremosNaoBrancos | js/app.js:808 | an occurrence of such a word starts and ends outside white space |
| Textos.Nucleo | js/app.js:808 | a stretch that starts and ends outside white space survives trimming |
| Textos.BrancoNaoMuda | js/app.js:808 | lower-casing leaves white space unchanged |
| Textos.Decimal | js/app.js:786-789 | `String(n)` is decimal digits that spell n, with no leading zero: one digit when n < 10, two when 10 <= n < 100 |
| Textos.Pad2 | js/app.js:787-788 | `padStart(2, '0')` gives decimal digits that spell n, exactly two of them when n < 100 |
| Textos.ZeroAEsquerda | js/app.js:787-788 | a leading zero does not change the value a digit string spells |
| App.FormatarData | js/app.js:1251-1259 | an empty date text formats to the empty text |
| App.FormatarDataISO | js/app.js:1254-1255 | `A-B-C` becomes `C/B/A`, so `YYYY-MM-DD` becomes `DD/MM/YYYY` |
| App.ConverterData | js/app.js:784-806 | a text whose `/`-split does not give three pieces is kept; a cell that is neither text nor a date becomes the current date |
| App.ConverterDataDMY | js/app.js:792-794 | `D/M/Y` becomes `Y-M-D` |
| App.ConverterFormatar | js/app.js:792-794 | converting `DD/MM/YYYY` and formatting it again gives the text back when the pieces hold no `-` |
| App.NormalizarTipo | js/app.js:808 | the result is Compra iff the lower-cased text contains `compra`, and Venda otherwise |
| App.ClassificarLinha | js/app.js:773-833 | a row is imported iff it reaches every column, its five fields are truthy, `tipo` is a text and the reference is a text that is a key of `precos`, and then it yields the transaction built from its cells; it throws iff the row is complete and its `tipo` is not a text |
| App.TransacaoDaLinha | js/app.js:784-819 | the transaction of an importable row names a priced contract |
| App.ImportacaoPasso | js/app.js:772-834 | one more row is one more step of the counters |
| App.ImportacaoConta | js/app.js:772-834 | each row counts at most once as imported or invalid, and exactly once unless the loop was cut short; imported references are keys of `precos` |
| App.ImportacaoAbortada | js/app.js:808 | once a non-text `tipo` has ended the loop, later rows change nothing |
| App.ImportacaoQuebra | js/app.js:776-808 | the loop is cut short iff some data row is complete and has a `tipo` that is not a text |
| App.ImportacaoExata | js/app.js:772-834 | when the loop is not cut short, the imported transactions are exactly those of the importable rows, in row order, and the invalid count is the number of the other rows |
| App.InserirTodas | js/app.js:813-819 | the repeated insertions grow the list by the number of transactions inserted |
| App.InserirTodasPasso | js/app.js:813-819 | one more imported row is one more `adicionarTransacao` |
| App.ImportarLinha | js/app.js:773-833 | the loop body moves the counters to those of one more row; when the row is imported its transaction is inserted and the positions are recomputed as of today, otherwise the portfolio is left as it was |
| App.ImportarExcel | js/app.js:768-834 | the counters are those of the data rows, and the transactions are the old ones with every imported row inserted in row order; when some row was imported the positions are recomputed as of today, and when none was the positions are left as they were |
| App.LinhasPreview | js/app.js:674-677 | the preview loop visits rows 1 to min(10, rows-1): at most 10 rows and none when there are no data rows |
| App.EstimativaLiquidacao | js/app.js:281-290 | an estimate exists iff the reference has an open position |
| App.EstimativaIgualRegistro | js/app.js:284-290 | liquidating up to the open size appends one record of that size, whose result equals the estimate |
| App.LiquidacaoParcial | data_api.js:295-312 | closing no more than the open size records exactly the contracts asked for, at the side's price difference |
| App.EncontradaNoReplay | data_api.js:356-391 | the position `find` returns after a replay matches its reference's record in side, size and average |
| Graficos.Rotulos | js/charts.js:168 | there are no more labels than records |
| Graficos.RotulosDistintos | js/charts.js:160-168 | the labels are distinct and are exactly the references that occur |
| Graficos.SomaDeAusente | js/charts.js:160-166 | a reference that never occurs sums to 0 |
| Graficos.Somas | js/charts.js:169 | each value is the sum of the values filed under its label |
| Graficos.SomaUltimo | js/charts.js:169 | the sum of the values with one more value adds that value |
| Graficos.SomasAcrescimo | js/charts.js:161-166 | one more record adds its value to the grouped total iff its reference is a label |
| Graficos.SomaAgrupada | js/charts.js:160-169 | the grouped values sum to the total of all values |
| Graficos.Agrupar | js/charts.js:160-169 | the accumulator loop yields the labels in first-seen order and the per-label sums |
| Graficos.Cores | js/charts.js:170 | a bar is positive-coloured iff its value is at least 0 |
| Graficos.ParcelasResultado | js/charts.js:161-166 | each record's result is filed under its reference |
| Graficos.GraficoResultado | js/charts.js:151-175 | no records give no labels, values or colours; otherwise the labels, per-reference sums of results and their colours |
| Graficos.GraficoResultadoTotal | js/charts.js:160-169 | one distinct label per reference that occurs, and the bars add up to the total result |
| Graficos.TotalResultados | js/charts.js:160-169 | the total of the filed results is the accumulated result |
| Graficos.ParcelasContratos | js/charts.js:266-271 | each open position's contracts are filed under its reference |
| Graficos.GraficoContratos | js/charts.js:256-277 | the distribution chart: empty for no positions, otherwise per-reference sums of open contracts; the exposure chart (js/charts.js lines 456-477) builds the same labels and values |
| Graficos.GraficoContratosTotal | js/charts.js:265-274 | one distinct label per reference that occurs, and the slices add up to the total open contracts |
| Graficos.TotalContratos | js/charts.js:466-474 | the total of the filed contracts is the number of open contracts |
| Graficos.Contar | js/charts.js:370-373 | a count is at most the number of records |
| Graficos.DoLado | js/charts.js:370-373 | a side's count is at most the number of records |
| Graficos.ContagemEstrategia | js/charts.js:361-376 | no records give [0,0] for each side; otherwise each side has two counts |
| Graficos.EstrategiaParticiona | js/charts.js:370-373 | each side's positive and non-positive counts add up to that side's records, the two sides cover every record, and the positive counts are the metrics' winning trades |
| Graficos.ZeroConta | js/charts.js:371-373 | a result of 0 counts as a loss of its side |

## Left out

- Persistence and the network are not modelled: `salvarDados`, `carregarDados`, `verificarConexaoAPI`, `migrarDadosLocalParaAPI`, `exportarDados`, `fetch`, `localStorage` and JSON parsing. The methods that end with `return await salvarDados()`, apart from the two below, return nothing here. `ImportarDados` receives already-parsed prices and transactions.
- DadosApi.Carteira.LiquidarPosicao: returns only whether the reference has an open position. When it has one, the source returns the result of `adicionarTransacao`, which is what `salvarDados()` returns (data_api.js line 409). A failed save is not modelled.
- DadosApi.Carteira.ImportarDados: returns only whether both prices and transactions are present. When they are, the source returns what `salvarDados()` returns (data_api.js line 581), and js/app.js lines 421-423 branch on that. A failed save is not modelled.
- `worker.js`, `src/index.ts` and the copies of the application under `Library/` are not part of this model.
- JavaScript `Date` is not modelled. Dates are day numbers. "Today" is the parameter `hoje` (for `diasEmAberto` and the date of `liquidarPosicao`), and the spreadsheet's current date is the parameter `agora`. The date text of an imported row becomes a day number through a supplied conversion.
- `parseInt` and `parseFloat` of spreadsheet cells are supplied conversions. NaN, `|| 0` on the estimate's inputs and `parseFloat` in `atualizarPrecos` are not modelled.
- Numbers are exact reals: IEEE-754 rounding, `toFixed` and the display formatting are not modelled.
- The Sharpe index and the volatility of `calcularMetricas` (square root) are not modelled. The `Metricas` record has no such fields.
- `id: Date.now()` and the per-reference `valorTotal` are left out: the core writes them but never reads them. The per-reference transaction list appears only as the filter `Historico` used in the proofs.
- A `tipo` other than `'Compra'` or `'Venda'` cannot be written, because `Tipo` has two constructors. In the source such a transaction creates its reference and sets its entry date but changes nothing else.
- The key order of `Object.entries` and `Object.keys` is taken to be insertion order. That is JavaScript's order for non-numeric keys like `BGIJ25`; integer-like keys, which JavaScript lists first, are not modelled.
- `toLowerCase` is modelled on ASCII letters only.
- `DadosApi.Carteira.CalcularPosicoes`: the in-place `Array.prototype.sort` is modelled by its result `Ordenar`, a stable sort by date proved sorted, a permutation and stable. The in-place array algorithm is not modelled.
- App.FormatarData: the `try`/`catch` is not modelled, because `split` on a string cannot throw. Falsy non-string inputs are modelled only as the empty text.
- App.ClassificarLinha: a row is never `null` or `undefined`. Cells are one of text, number, date, boolean or empty.
- App.ImportacaoConta: the counters add up to the number of data rows only when the loop is not cut short. In the source, `tipo.trim()` throws on a truthy `tipo` that is not a string, and this ends the whole import handler. The preview calls `tipo.trim()` too (js/app.js:700), on data rows 1 to 10, before the import listener is attached (js/app.js:758-760). Such a row there stops the preview, and the import is then never offered. So the cut-short case that `App.ImportacaoQuebra` and `App.ImportacaoAbortada` describe can only come from data row 11 on.
- All DOM, modal, notification and Chart.js code is not modelled, nor the border colours (the same test as the background colours).
- The preview's per-row statistics (`compras`, `vendas`, `totalContratos`) are not modelled. Only the rows the preview loop visits are.
- App.LinhasPreview: the rows the loop visits, not the rows it shows. The preview skips a row that does not reach every column (js/app.js:679) or has a falsy field (js/app.js:686), so it can show fewer rows than it visits. That filtering is not modelled.

=== FILE: app.dfy ===
/** The computations embedded in the user-interface code of js/app.js: the
    date reformatting of `formatarData`, the row handling of the Excel import
    (date conversion, `tipo` normalisation, validation and counting), the
    preview row limit and the liquidation estimate. */
module App {
  import opened Basico
  import opened Transacoes
  import opened Motor
  import opened Posicoes
  import opened DadosApi
  import opened Textos

  // ---------------------------------------------------------------------
  // formatarData (js/app.js:1251-1259)
  // ---------------------------------------------------------------------

  /** Element `i` of a destructured array, or the text `undefined` that a
      template literal shows for a missing one. */
  function Parte(partes: seq<string>, i: nat): string
  {
    if i < |partes| then partes[i] else "undefined"
  }

  /** `formatarData`: split on `-` and show the pieces as `dia/mes/ano`. */
  function FormatarData(dataString: string): (r: string)
    ensures dataString == "" ==> r == ""
  {
    if dataString == "" then ""
    else
      var partes := Dividir(dataString, '-');
      Parte(partes, 2) + "/" + Parte(partes, 1) + "/" + Parte(partes, 0)
  }

  /** `YYYY-MM-DD` becomes `DD/MM/YYYY`: the three pieces in reverse order. */
  lemma FormatarDataISO(ano: string, mes: string, dia: string)
    requires '-' !in ano && '-' !in mes && '-' !in dia
    ensures FormatarData(ano + "-" + mes + "-" + dia) == dia + "/" + mes + "/" + ano
  {
    var partes := [ano, mes, dia];
    assert partes[1..] == [mes, dia] && partes[1..][1..] == [dia];
    assert Juntar([mes, dia], '-') == mes + "-" + dia;
    assert Juntar(partes, '-') == ano + "-" + (mes + "-" + dia);
    DividirJuntar(partes, '-');
    assert ano + "-" + mes + "-" + dia == ano + "-" + (mes + "-" + dia);
  }

  // ---------------------------------------------------------------------
  // The Excel import (js/app.js:772-834)
  // ---------------------------------------------------------------------

  /** What a `Date` reports through `getFullYear`, `getMonth() + 1` and
      `getDate`. */
  datatype DataCivil = DataCivil(ano: nat, mes: nat, dia: nat)

  /** A spreadsheet cell as the sheet reader delivers it. */
  datatype Celula = Vazia | Texto(texto: string) | Numero(numero: real) | Data(data: DataCivil) | Logico(logico: bool)

  /** JavaScript truthiness of a cell value. */
  predicate Verdadeira(c: Celula)
  {
    match c
    case Vazia => false
    case Texto(s) => s != ""
    case Numero(n) => n != 0.0
    case Data(_) => true
    case Logico(b) => b
  }

  /** `${year}-${month}-${day}` with month and day padded to two digits. */
  function Iso(d: DataCivil): string
  {
    Decimal(d.ano) + "-" + Pad2(d.mes) + "-" + Pad2(d.dia)
  }

  /** The `dataFormatada` of a row: a `Date` in ISO form; a text with three
      `/`-separated pieces `D/M/Y` rearranged to `Y-M-D`, any other text kept;
      anything else replaced by the current date `agora`. */
  function ConverterData(c: Celula, agora: DataCivil): (r: string)
    ensures c.Texto? && Ocorrencias(c.texto, '/') != 2 ==> r == c.texto
    ensures !c.Texto? && !c.Data? ==> r == Iso(agora)
  {
    match c
    case Data(d) => Iso(d)
    case Texto(s) =>
      var partes := Dividir(s, '/');
      DividirTamanho(s, '/');
      if |partes| == 3 then partes[2] + "-" + partes[1] + "-" + partes[0] else s
    case _ => Iso(agora)
  }

  /** `D/M/Y` becomes `Y-M-D`. */
  lemma ConverterDataDMY(d: string, m: string, y: string, agora: DataCivil)
    requires '/' !in d && '/' !in m && '/' !in y
    ensures ConverterData(Texto(d + "/" + m + "/" + y), agora) == y + "-" + m + "-" + d
  {
    var partes := [d, m, y];
    assert partes[1..] == [m, y] && partes[1..][1..] == [y];
    assert Juntar([m, y], '/') == m + "/" + y;
    assert Juntar(partes, '/') == d + "/" + (m + "/" + y);
    DividirJuntar(partes, '/');
    assert d + "/" + m + "/" + y == d + "/" + (m + "/" + y);
  }

  /** Converting a `DD/MM/YYYY` text and formatting it again gives the text
      back, as long as its pieces hold no `-`. */
  lemma ConverterFormatar(d: string, m: string, y: string, agora: DataCivil)
    requires '/' !in d && '/' !in m && '/' !in y
    requires '-' !in d && '-' !in m && '-' !in y
    ensures FormatarData(ConverterData(Texto(d + "/" + m + "/" + y), agora)) == d + "/" + m + "/" + y
  {
    ConverterDataDMY(d, m, y, agora);
    FormatarDataISO(y, m, d);
  }

  /** `tipo.trim().toLowerCase().includes('compra') ? 'Compra' : 'Venda'`;
      the trim makes no difference to the outcome. */
  function NormalizarTipo(tipo: string): (t: Tipo)
    ensures t == Compra <==> Contem(Minusculas(tipo), "compra")
  {
    ApararContem(tipo, "compra");
    if Contem(Minusculas(Aparar(tipo)), "compra") then Compra else Venda
  }

  /** The column of each field, found from the header row. */
  datatype Colunas = Colunas(data: nat, tipo: nat, codigo: nat, qtd: nat, preco: nat)

  /** The conversions the import hands to the runtime: the date text to a
      day number (`new Date`), and `parseInt` / `parseFloat` of a cell. */
  datatype Conversores = Conversores(dia: string -> int, inteiro: Celula -> int, decimal: Celula -> real)

  /** What the loop does with one data row. */
  datatype Classificacao = Importada(transacao: Transacao) | Invalida | Falha

  /** The row reaches every column and its five fields are truthy. */
  predicate LinhaCompleta(linha: seq<Celula>, cols: Colunas)
  {
    && cols.data < |linha| && cols.tipo < |linha| && cols.codigo < |linha| && cols.qtd < |linha| && cols.preco < |linha|
    && Verdadeira(linha[cols.data]) && Verdadeira(linha[cols.tipo]) && Verdadeira(linha[cols.codigo])
    && Verdadeira(linha[cols.qtd]) && Verdadeira(linha[cols.preco])
  }

  /** A complete row whose `tipo` is a text and whose reference is a text
      naming a priced contract. */
  predicate LinhaImportavel(linha: seq<Celula>, cols: Colunas, precos: map<string, real>)
  {
    && LinhaCompleta(linha, cols) && linha[cols.tipo].Texto?
    && linha[cols.codigo].Texto? && linha[cols.codigo].texto in precos
  }

  /** A complete row whose `tipo` is not a text: `tipo.trim()` throws. */
  predicate LinhaQuebra(linha: seq<Celula>, cols: Colunas)
  {
    LinhaCompleta(linha, cols) && !linha[cols.tipo].Texto?
  }

  /** The transaction an importable row stands for. */
  function TransacaoDaLinha(linha: seq<Celula>, cols: Colunas, precos: map<string, real>,
                            conv: Conversores, agora: DataCivil): (t: Transacao)
    requires LinhaImportavel(linha, cols, precos)
    ensures t.referencia in precos
  {
    Transacao(conv.dia(ConverterData(linha[cols.data], agora)), linha[cols.codigo].texto,
              NormalizarTipo(linha[cols.tipo].texto), conv.inteiro(linha[cols.qtd]), conv.decimal(linha[cols.preco]))
  }

  /** One row: too short, or a falsy field, or an unknown reference makes it
      invalid; a `tipo` that is truthy but not text makes `tipo.trim()` throw,
      which ends the import; otherwise it becomes a transaction. */
  function ClassificarLinha(linha: seq<Celula>, cols: Colunas, precos: map<string, real>,
                            conv: Conversores, agora: DataCivil): (c: Classificacao)
    ensures c.Importada? ==> c.transacao.referencia in precos
    ensures c.Importada? ==> |linha| > cols.codigo && linha[cols.codigo] == Texto(c.transacao.referencia)
    ensures c.Falha? ==> |linha| > cols.tipo && !linha[cols.tipo].Texto?
    ensures c.Importada? <==> LinhaImportavel(linha, cols, precos)
    ensures c.Falha? <==> LinhaQuebra(linha, cols)
    ensures c.Importada? ==> c.transacao == TransacaoDaLinha(linha, cols, precos, conv, agora)
  {
    if |linha| > Max(Max(Max(cols.data, cols.tipo), Max(cols.codigo, cols.qtd)), cols.preco) then
      var dataRaw, tipo, referencia, contratos, preco :=
        linha[cols.data], linha[cols.tipo], linha[cols.codigo], linha[cols.qtd], linha[cols.preco];
      if Verdadeira(dataRaw) && Verdadeira(tipo) && Verdadeira(referencia) && Verdadeira(contratos) && Verdadeira(preco) then
        var dataFormatada := ConverterData(dataRaw, agora);
        match tipo
        case Texto(s) =>
          if referencia.Texto? && referencia.texto in precos then
            Importada(Transacao(conv.dia(dataFormatada), referencia.texto, NormalizarTipo(s),
                                conv.inteiro(contratos), conv.decimal(preco)))
          else Invalida
        case _ => Falha
      else Invalida
    else Invalida
  }

  /** The outcome of the loop over some data rows: the transactions added,
      in order, the count of invalid rows, and whether it was cut short. */
  datatype Resumo = Resumo(transacoes: seq<Transacao>, invalidas: nat, abortada: bool)

  /** The counters after one more row. */
  function Acumular(r: Resumo, c: Classificacao): Resumo
  {
    if r.abortada then r
    else match c
      case Importada(t) => Resumo(r.transacoes + [t], r.invalidas, false)
      case Invalida => Resumo(r.transacoes, r.invalidas + 1, false)
      case Falha => Resumo(r.transacoes, r.invalidas, true)
  }

  function Importacao(linhas: seq<seq<Celula>>, cols: Colunas, precos: map<string, real>,
                      conv: Conversores, agora: DataCivil): Resumo
  {
    if linhas == [] then Resumo([], 0, false)
    else Acumular(Importacao(linhas[..|linhas| - 1], cols, precos, conv, agora),
                  ClassificarLinha(linhas[|linhas| - 1], cols, precos, conv, agora))
  }

  lemma ImportacaoPasso(linhas: seq<seq<Celula>>, n: nat, cols: Colunas, precos: map<string, real>,
                        conv: Conversores, agora: DataCivil)
    requires n < |linhas|
    ensures Importacao(linhas[..n + 1], cols, precos, conv, agora)
         == Acumular(Importacao(linhas[..n], cols, precos, conv, agora), ClassificarLinha(linhas[n], cols, precos, conv, agora))
  {
    assert linhas[..n + 1][..n] == linhas[..n];
  }

  /** The transactions of the importable rows, in row order. */
  function Importaveis(linhas: seq<seq<Celula>>, cols: Colunas, precos: map<string, real>,
                       conv: Conversores, agora: DataCivil): seq<Transacao>
  {
    if linhas == [] then []
    else
      var ultima := linhas[|linhas| - 1];
      Importaveis(linhas[..|linhas| - 1], cols, precos, conv, agora)
        + (if LinhaImportavel(ultima, cols, precos) then [TransacaoDaLinha(ultima, cols, precos, conv, agora)] else [])
  }

  /** The number of rows that are not importable. */
  function Rejeitadas(linhas: seq<seq<Celula>>, cols: Colunas, precos: map<string, real>): nat
  {
    if linhas == [] then 0
    else Rejeitadas(linhas[..|linhas| - 1], cols, precos) + (if LinhaImportavel(linhas[|linhas| - 1], cols, precos) then 0 else 1)
  }

  /** Each data row counts exactly once, as imported or as invalid, unless
      the loop was cut short; and only rows whose reference is a key of
      `precos` are imported. */
  lemma {:induction false} ImportacaoConta(linhas: seq<seq<Celula>>, cols: Colunas, precos: map<string, real>,
                                          conv: Conversores, agora: DataCivil)
    ensures var r := Importacao(linhas, cols, precos, conv, agora);
      && |r.transacoes| + r.invalidas <= |linhas|
      && (!r.abortada ==> |r.transacoes| + r.invalidas == |linhas|)
      && (forall i :: 0 <= i < |r.transacoes| ==> r.transacoes[i].referencia in precos)
  {
    if linhas != [] {
      ImportacaoConta(linhas[..|linhas| - 1], cols, precos, conv, agora);
    }
  }

  /** The loop is cut short exactly when some row has a truthy `tipo` that
      is not a text. */
  lemma {:induction false} ImportacaoQuebra(linhas: seq<seq<Celula>>, cols: Colunas, precos: map<string, real>,
                                           conv: Conversores, agora: DataCivil)
    ensures Importacao(linhas, cols, precos, conv, agora).abortada
            <==> exists i :: 0 <= i < |linhas| && LinhaQuebra(linhas[i], cols)
  {
    if linhas != [] {
      var init, ultima := linhas[..|linhas| - 1], linhas[|linhas| - 1];
      ImportacaoQuebra(init, cols, precos, conv, agora);
      var c := ClassificarLinha(ultima, cols, precos, conv, agora);
      assert Importacao(linhas, cols, precos, conv, agora).abortada
             == (Importacao(init, cols, precos, conv, agora).abortada || c.Falha?);
      if exists i :: 0 <= i < |init| && LinhaQuebra(init[i], cols) {
        var i :| 0 <= i < |init| && LinhaQuebra(init[i], cols);
        assert init[i] == linhas[i];
      }
      if exists i :: 0 <= i < |linhas| && LinhaQuebra(linhas[i], cols) {
        var i :| 0 <= i < |linhas| && LinhaQuebra(linhas[i], cols);
        if i < |init| {
          assert init[i] == linhas[i];
        }
      }
    }
  }

  /** When the loop runs to the end, the imported transactions are those of
      the importable rows, in row order, and the invalid count is the number
      of the other rows. */
  lemma {:induction false} ImportacaoExata(linhas: seq<seq<Celula>>, cols: Colunas, precos: map<string, real>,
                                          conv: Conversores, agora: DataCivil)
    ensures var r := Importacao(linhas, cols, precos, conv, agora);
      !r.abortada ==> r.transacoes == Importaveis(linhas, cols, precos, conv, agora)
                      && r.invalidas == Rejeitadas(linhas, cols, precos)
  {
    if linhas != [] {
      var init, ultima := linhas[..|linhas| - 1], linhas[|linhas| - 1];
      ImportacaoExata(init, cols, precos, conv, agora);
      var r0 := Importacao(init, cols, precos, conv, agora);
      var c := ClassificarLinha(ultima, cols, precos, conv, agora);
      assert Importacao(linhas, cols, precos, conv, agora) == Acumular(r0, c);
    }
  }

  /** Transactions inserted one after the other, as repeated
      `adicionarTransacao` calls do. */
  function InserirTodas(s: seq<Transacao>, ts: seq<Transacao>): (r: seq<Transacao>)
    ensures |r| == |s| + |ts|
  {
    if ts == [] then s
    else
      InserirConteudo(InserirTodas(s, ts[..|ts| - 1]), ts[|ts| - 1]);
      Inserir(InserirTodas(s, ts[..|ts| - 1]), ts[|ts| - 1])
  }

  lemma InserirTodasPasso(s: seq<Transacao>, ts: seq<Transacao>, t: Transacao)
    ensures InserirTodas(s, ts + [t]) == Inserir(InserirTodas(s, ts), t)
  {
    assert (ts + [t])[..|ts|] == ts;
  }

  /** One pass of the loop body on the portfolio: row `n` is classified, an
      imported row is added with `adicionarTransacao`, and the counters move
      on to those of the first `n + 1` rows. */
  method ImportarLinha(carteira: Carteira, linha: seq<Celula>, cols: Colunas, conv: Conversores,
                       agora: DataCivil, hoje: int, ghost base: seq<Transacao>,
                       ghost dados: seq<seq<Celula>>, ghost n: nat, ghost resumo: Resumo,
                       importadas: nat, invalidas: nat)
    returns (importadas': nat, invalidas': nat, abortada: bool)
    requires n < |dados| && dados[n] == linha
    requires resumo == Importacao(dados[..n], cols, carteira.precos, conv, agora) && !resumo.abortada
    requires importadas == |resumo.transacoes| && invalidas == resumo.invalidas
    requires carteira.Valid() && carteira.transacoes == InserirTodas(base, resumo.transacoes)
    modifies carteira
    ensures var r := Importacao(dados[..n + 1], cols, old(carteira.precos), conv, agora);
      && importadas' == |r.transacoes| && invalidas' == r.invalidas && abortada == r.abortada
      && carteira.transacoes == InserirTodas(base, r.transacoes)
      && (|r.transacoes| == |resumo.transacoes| + 1 ==> carteira.diaCalculo == hoje)
      && (r.transacoes == resumo.transacoes ==>
            && carteira.transacoes == old(carteira.transacoes) && carteira.diaCalculo == old(carteira.diaCalculo)
            && carteira.posicoesAbertas == old(carteira.posicoesAbertas)
            && carteira.posicoesLiquidadas == old(carteira.posicoesLiquidadas))
      && (|r.transacoes| == |resumo.transacoes| + 1 || r.transacoes == resumo.transacoes)
    ensures carteira.precos == old(carteira.precos)
    ensures carteira.Valid()
  {
    var c := ClassificarLinha(linha, cols, carteira.precos, conv, agora);
    ImportacaoPasso(dados, n, cols, carteira.precos, conv, agora);
    importadas', invalidas', abortada := importadas, invalidas, false;
    if c.Importada? {
      InserirTodasPasso(base, resumo.transacoes, c.transacao);
      carteira.AdicionarTransacao(c.transacao, hoje);
      importadas' := importadas + 1;
    } else if c.Invalida? {
      invalidas' := invalidas + 1;
    } else {
      abortada := true;
    }
  }

  /** The click handler of the import: rows from the second one on, each
      added with `adicionarTransacao` or counted as invalid. */
  method ImportarExcel(carteira: Carteira, jsonData: seq<seq<Celula>>, cols: Colunas, conv: Conversores,
                       agora: DataCivil, hoje: int)
    returns (transacoesImportadas: nat, transacoesInvalidas: nat, abortada: bool)
    requires carteira.Valid()
    modifies carteira
    ensures var r := Importacao(if jsonData == [] then [] else jsonData[1..], cols, old(carteira.precos), conv, agora);
      && transacoesImportadas == |r.transacoes| && transacoesInvalidas == r.invalidas && abortada == r.abortada
      && carteira.transacoes == InserirTodas(old(carteira.transacoes), r.transacoes)
      && (|r.transacoes| > 0 ==> carteira.diaCalculo == hoje)
      && (r.transacoes == [] ==> carteira.transacoes == old(carteira.transacoes)
                                 && carteira.diaCalculo == old(carteira.diaCalculo)
                                 && carteira.posicoesAbertas == old(carteira.posicoesAbertas)
                                 && carteira.posicoesLiquidadas == old(carteira.posicoesLiquidadas))
    ensures carteira.precos == old(carteira.precos)
    ensures carteira.Valid()
  {
    transacoesImportadas, transacoesInvalidas, abortada := 0, 0, false;
    ghost var dados := if jsonData == [] then [] else jsonData[1..];
    ghost var precos, base := carteira.precos, carteira.transacoes;
    ghost var dia0, abertas0, liquidadas0 := carteira.diaCalculo, carteira.posicoesAbertas, carteira.posicoesLiquidadas;
    ghost var resumo := Resumo([], 0, false);
    var i := 1;
    ghost var feitas := 0;
    while i < |jsonData| && !abortada
      invariant i == feitas + 1 && feitas <= |dados|
      invariant resumo == Importacao(dados[..feitas], cols, precos, conv, agora)
      invariant transacoesImportadas == |resumo.transacoes| && transacoesInvalidas == resumo.invalidas
      invariant abortada == resumo.abortada
      invariant carteira.transacoes == InserirTodas(base, resumo.transacoes)
      invariant carteira.precos == precos
      invariant |resumo.transacoes| > 0 ==> carteira.diaCalculo == hoje
      invariant resumo.transacoes == [] ==>
                  (carteira.diaCalculo == dia0 && carteira.posicoesAbertas == abertas0
                   && carteira.posicoesLiquidadas == liquidadas0)
      invariant carteira.Valid()
      decreases |jsonData| - i
    {
      transacoesImportadas, transacoesInvalidas, abortada :=
        ImportarLinha(carteira, jsonData[i], cols, conv, agora, hoje, base, dados, feitas, resumo,
                      transacoesImportadas, transacoesInvalidas);
      resumo := Importacao(dados[..feitas + 1], cols, precos, conv, agora);
      feitas := i;
      i := i + 1;
    }
    if jsonData != [] {
      if abortada {
        ImportacaoAbortada(dados, feitas, cols, precos, conv, agora);
      } else {
        assert feitas == |dados|;
        assert dados[..feitas] == dados;
      }
    }
  }

  /** Once the loop has been cut short, the later rows change nothing. */
  lemma {:induction false} ImportacaoAbortada(linhas: seq<seq<Celula>>, n: nat, cols: Colunas, precos: map<string, real>,
                                             conv: Conversores, agora: DataCivil)
    requires n <= |linhas|
    requires Importacao(linhas[..n], cols, precos, conv, agora).abortada
    ensures Importacao(linhas, cols, precos, conv, agora) == Importacao(linhas[..n], cols, precos, conv, agora)
    decreases |linhas| - n
  {
    if n < |linhas| {
      assert linhas[..n + 1][..n] == linhas[..n];
      ImportacaoAbortada(linhas, n + 1, cols, precos, conv, agora);
    } else {
      assert linhas[..n] == linhas;
    }
  }

  // ---------------------------------------------------------------------
  // The preview (js/app.js:674)
  // ---------------------------------------------------------------------

  /** `Math.min(10, jsonData.length - 1)`. */
  function MaxLinhasPreview(n: nat): int
  {
    Min(10, n - 1)
  }

  /** The rows the preview loop visits: indices 1 to `MaxLinhasPreview`. */
  function LinhasPreview<T>(jsonData: seq<T>): (l: seq<T>)
    ensures |l| == Max(0, MaxLinhasPreview(|jsonData|)) && |l| <= 10
    ensures forall i :: 0 <= i < |l| ==> l[i] == jsonData[i + 1]
  {
    var n := MaxLinhasPreview(|jsonData|);
    if n <= 0 then [] else jsonData[1..n + 1]
  }

  // ---------------------------------------------------------------------
  // The liquidation estimate (js/app.js:284-290)
  // ---------------------------------------------------------------------

  /** The estimate shown while a liquidation is being typed in, for the
      first open position of `referencia`. */
  function EstimativaLiquidacao(posicoesAbertas: seq<Aberta>, referencia: string, contratos: int, preco: real): (e: Option<real>)
    ensures e.Some? <==> Encontrar(posicoesAbertas, referencia).Some?
  {
    match Encontrar(posicoesAbertas, referencia)
    case None => None
    case Some(posicao) =>
      Some(Resultado(posicao.tipo, posicao.precoMedio, preco, contratos))
  }

  /** The estimate is what the engine will record: liquidating up to the
      open size of a position, on a day no earlier than any transaction,
      appends exactly one liquidation record whose result equals the
      estimate shown for it. */
  lemma EstimativaIgualRegistro(ts: seq<Transacao>, t: Transacao, precos: map<string, real>, hoje: int)
    requires forall i :: 0 <= i < |ts| ==> ts[i].data <= t.data
    requires var e := Replay(ts);
      var o := Encontrar(AbertasDe(e.mapa, e.ordem, precos, hoje), t.referencia);
      o.Some? && t.tipo == Oposto(o.value.tipo) && 0 < t.contratos <= o.value.contratos
    ensures var e := Replay(ts);
      var l := AbertasDe(e.mapa, e.ordem, precos, hoje);
      var ls := Replay(Inserir(ts, t)).liquidadas;
      && |ls| == |e.liquidadas| + 1
      && ls[..|e.liquidadas|] == e.liquidadas
      && ls[|e.liquidadas|].contratos == t.contratos
      && Some(ls[|e.liquidadas|].resultado) == EstimativaLiquidacao(l, t.referencia, t.contratos, t.preco)
  {
    var e := Replay(ts);
    var l := AbertasDe(e.mapa, e.ordem, precos, hoje);
    var a := Encontrar(l, t.referencia).value;
    var p := EncontradaNoReplay(ts, precos, hoje, t.referencia);
    assert Encontrar(l, t.referencia) == Some(a);
    InserirNoFim(ts, t);
    assert (ts + [t])[..|ts|] == ts;
    assert Atual(e, t.referencia) == p;
    LiquidacaoParcial(p, t);
    assert Replay(ts + [t]).liquidadas == e.liquidadas + [Liquidacao(p, t).value];
  }

  /** Closing no more than the open size records exactly the contracts
      asked for, at the estimate's price difference. */
  lemma LiquidacaoParcial(p: Posicao, t: Transacao)
    requires 0 < t.contratos <= Abs(p.saldo)
    requires (t.tipo == Compra && p.saldo < 0) || (t.tipo == Venda && p.saldo > 0)
    ensures Liquidacao(p, t).Some? && Liquidacao(p, t).value.contratos == t.contratos
    ensures Liquidacao(p, t).value.resultado == Resultado(if p.saldo > 0 then Compra else Venda, p.precoMedio, t.preco, t.contratos)
  {
    PassoLiquida(p, t);
  }

  /** The position `Encontrar` returns after a replay is the open position
      built from that reference's record. */
  lemma EncontradaNoReplay(ts: seq<Transacao>, precos: map<string, real>, hoje: int, r: string) returns (p: Posicao)
    requires var e := Replay(ts); Encontrar(AbertasDe(e.mapa, e.ordem, precos, hoje), r).Some?
    ensures var e := Replay(ts); var a := Encontrar(AbertasDe(e.mapa, e.ordem, precos, hoje), r).value;
      && r in e.mapa && p == e.mapa[r] && p.saldo != 0
      && (a.tipo == Compra <==> p.saldo > 0) && a.contratos == Abs(p.saldo) && a.precoMedio == p.precoMedio
  {
    var e := Replay(ts);
    var l := AbertasDe(e.mapa, e.ordem, precos, hoje);
    ReplayBemFormado(ts);
    AbertasDeCaracteriza(e.mapa, e.ordem, precos, hoje);
    var i :| 0 <= i < |l| && l[i] == Encontrar(l, r).value && l[i].referencia == r;
    p := e.mapa[r];
  }
}

=== FILE: basico.dfy ===
/** Small shared definitions: an optional value (JavaScript `null`) and the
    `Math.min` / `Math.max` / `Math.abs` helpers the engine uses. */
module Basico {

  /** A value that may be absent, as `null` is used for `dataEntrada`. */
  datatype Option<+T> = None | Some(value: T)

  function Min(a: int, b: int): int { if a <= b then a else b }

  function Max(a: int, b: int): int { if a >= b then a else b }

  function Abs(a: int): nat { if a < 0 then -a else a }

  function MinReal(a: real, b: real): real { if a <= b then a else b }

  function MaxReal(a: real, b: real): real { if a >= b then a else b }

  function AbsReal(a: real): real { if a < 0.0 then -a else a }
}

=== FILE: carteira.dfy ===
/** The application state of data_api.js — `precos`, `transacoes`,
    `posicoesAbertas`, `posicoesLiquidadas` — and the operations that change
    it in place: `calcularPosicoes`, `adicionarTransacao`, `liquidarPosicao`,
    `atualizarPrecos`, `resetarDados` and the state effect of
    `importarDados`; plus the read-only `simularPreco`. */
module DadosApi {
  import opened Basico
  import opened Transacoes
  import opened Motor
  import opened Posicoes

  /** The reference `simularPreco` treats as "every open position". */
  const TODOS_OS_CONTRATOS: string := "Todos os Contratos"

  /** The initial price table (BGI futures, April to December 2025). */
  function PrecosIniciais(): (m: map<string, real>)
    ensures m.Keys == {"BGIJ25", "BGIK25", "BGIM25", "BGIN25", "BGIQ25", "BGIU25", "BGIV25", "BGIX25", "BGIZ25"}
    ensures forall r :: r in m ==> 270.0 <= m[r] <= 350.0
  {
    map["BGIJ25" := 350.0, "BGIK25" := 340.0, "BGIM25" := 330.0, "BGIN25" := 320.0,
        "BGIQ25" := 310.0, "BGIU25" := 300.0, "BGIV25" := 290.0, "BGIX25" := 280.0,
        "BGIZ25" := 270.0]
  }

  /** `precos` after `atualizarPrecos(novos)`: entries already present take
      the new value, new references are ignored. */
  function PrecosAtualizados(precos: map<string, real>, novos: map<string, real>): (m: map<string, real>)
    ensures m.Keys == precos.Keys
    ensures forall r :: r in precos && r in novos ==> m[r] == novos[r]
    ensures forall r :: r in precos && r !in novos ==> m[r] == precos[r]
  {
    map r | r in precos :: if r in novos then novos[r] else precos[r]
  }

  /** An open position re-valued at `precoAtual` (the `forEach` body of
      `atualizarPrecos`). */
  function Remarcar(a: Aberta, precoAtual: real): (b: Aberta)
    ensures b.precoAtual == precoAtual
    ensures precoAtual > 0.0 ==> b.resultadoPotencial == Resultado(a.tipo, a.precoMedio, precoAtual, a.contratos)
    ensures precoAtual <= 0.0 ==> b.resultadoPotencial == 0.0
    ensures b.referencia == a.referencia && b.tipo == a.tipo && b.contratos == a.contratos
    ensures b.precoMedio == a.precoMedio && b.diasEmAberto == a.diasEmAberto
  {
    a.(resultadoPotencial := if precoAtual > 0.0 then Resultado(a.tipo, a.precoMedio, precoAtual, a.contratos) else 0.0,
       precoAtual := precoAtual)
  }

  /** Every open position re-valued at the table's price for its reference. */
  function Remarcadas(l: seq<Aberta>, precos: map<string, real>): (m: seq<Aberta>)
    ensures |m| == |l|
    ensures forall i :: 0 <= i < |l| ==> m[i] == Remarcar(l[i], PrecoAtual(precos, l[i].referencia))
  {
    if l == [] then [] else Remarcadas(l[..|l| - 1], precos) + [Remarcar(l[|l| - 1], PrecoAtual(precos, l[|l| - 1].referencia))]
  }

  /** The open positions of reference `r`, in order. */
  function DaReferencia(l: seq<Aberta>, r: string): (m: seq<Aberta>)
    ensures |m| <= |l|
    ensures forall i :: 0 <= i < |m| ==> m[i].referencia == r
  {
    if l == [] then [] else DaReferencia(l[..|l| - 1], r) + (if l[|l| - 1].referencia == r then [l[|l| - 1]] else [])
  }

  /** The filter keeps every position of reference `r`, each as often as it
      occurs in `l`, and nothing else. */
  lemma {:induction false} DaReferenciaCompleta(l: seq<Aberta>, r: string)
    ensures forall x :: x in DaReferencia(l, r) <==> x in l && x.referencia == r
    ensures forall x :: multiset(DaReferencia(l, r))[x] == if x.referencia == r then multiset(l)[x] else 0
  {
    if l != [] {
      DaReferenciaCompleta(l[..|l| - 1], r);
      assert l == l[..|l| - 1] + [l[|l| - 1]];
    }
  }

  /** What `simularPreco` adds up: each position's result at `preco`. */
  function Simulado(l: seq<Aberta>, preco: real): real
  {
    if l == [] then 0.0 else Simulado(l[..|l| - 1], preco) + Resultado(l[|l| - 1].tipo, l[|l| - 1].precoMedio, preco, l[|l| - 1].contratos)
  }

  /** The first open position of reference `r` (`posicoesAbertas.find`). */
  function Encontrar(l: seq<Aberta>, r: string): (o: Option<Aberta>)
    ensures o.None? <==> forall i :: 0 <= i < |l| ==> l[i].referencia != r
    ensures o.Some? ==> exists i :: 0 <= i < |l| && l[i] == o.value && l[i].referencia == r
                                    && forall j :: 0 <= j < i ==> l[j].referencia != r
  {
    if l == [] then None
    else if l[0].referencia == r then Some(l[0])
    else
      var o := Encontrar(l[1..], r);
      assert forall i :: 1 <= i < |l| ==> l[i] == l[1..][i - 1];
      if o.Some? then
        var k :| 0 <= k < |l[1..]| && l[1..][k] == o.value && l[1..][k].referencia == r
                 && forall j :: 0 <= j < k ==> l[1..][j].referencia != r;
        assert l[k + 1] == o.value;
        o
      else o
  }

  /** The `forEach` of `calcularPosicoes` over the sorted transactions:
      `mapaReferencias` (with its keys in insertion order) and the
      liquidation records pushed along the way. */
  method ProcessarTransacoes(transacoes: seq<Transacao>)
    returns (mapa: map<string, Posicao>, ordem: seq<string>, liquidadas: seq<Liquidada>)
    ensures Estado(mapa, ordem, liquidadas) == Replay(transacoes)
  {
    mapa, ordem, liquidadas := map[], [], [];
    var i := 0;
    while i < |transacoes|
      invariant 0 <= i <= |transacoes|
      invariant Estado(mapa, ordem, liquidadas) == Replay(transacoes[..i])
    {
      var t := transacoes[i];
      ghost var antes := Estado(mapa, ordem, liquidadas);
      if t.referencia !in mapa {
        mapa := mapa[t.referencia := Zerada];
        ordem := ordem + [t.referencia];
      }
      assert mapa[t.referencia] == Atual(antes, t.referencia);
      var nova, registro := AplicarTransacao(mapa[t.referencia], t);
      mapa := mapa[t.referencia := nova];
      assert mapa == antes.mapa[t.referencia := nova];
      if registro.Some? {
        liquidadas := liquidadas + [registro.value];
      }
      assert liquidadas == antes.liquidadas + Lista(registro);
      assert Estado(mapa, ordem, liquidadas) == Processar(antes, t);
      ReplayPasso(transacoes, i);
      i := i + 1;
    }
    assert transacoes[..i] == transacoes;
  }

  /** The `for ... of Object.entries(mapaReferencias)` loop: one open
      position per reference with a nonzero balance. */
  method MontarAbertas(mapa: map<string, Posicao>, ordem: seq<string>, precos: map<string, real>, hoje: int)
    returns (posicoesAbertas: seq<Aberta>)
    ensures posicoesAbertas == AbertasDe(mapa, ordem, precos, hoje)
  {
    posicoesAbertas := [];
    var j := 0;
    while j < |ordem|
      invariant 0 <= j <= |ordem|
      invariant posicoesAbertas == AbertasDe(mapa, ordem[..j], precos, hoje)
    {
      var referencia := ordem[j];
      assert ordem[..j + 1][..j] == ordem[..j];
      if referencia in mapa {
        var dados := mapa[referencia];
        if dados.saldo > 0 {
          var diasEmAberto := if dados.dataEntrada.Some? then Max(0, hoje - dados.dataEntrada.value) else 0;
          var precoAtual := if referencia in precos then precos[referencia] else 0.0;
          var resultadoPotencial := if precoAtual > 0.0 then (precoAtual - dados.precoMedio) * dados.saldo as real * ARROBAS else 0.0;
          ghost var a := AbertaDe(referencia, dados, PrecoAtual(precos, referencia), hoje);
          assert a.diasEmAberto == diasEmAberto && a.resultadoPotencial == resultadoPotencial;
          posicoesAbertas := posicoesAbertas + [Aberta(referencia, Compra, dados.saldo, dados.precoMedio, precoAtual,
                                                       resultadoPotencial, diasEmAberto)];
        } else if dados.saldo < 0 {
          var diasEmAberto := if dados.dataEntrada.Some? then Max(0, hoje - dados.dataEntrada.value) else 0;
          var precoAtual := if referencia in precos then precos[referencia] else 0.0;
          var resultadoPotencial := if precoAtual > 0.0 then (dados.precoMedio - precoAtual) * Abs(dados.saldo) as real * ARROBAS else 0.0;
          ghost var a := AbertaDe(referencia, dados, PrecoAtual(precos, referencia), hoje);
          assert a.diasEmAberto == diasEmAberto && a.resultadoPotencial == resultadoPotencial;
          posicoesAbertas := posicoesAbertas + [Aberta(referencia, Venda, Abs(dados.saldo), dados.precoMedio, precoAtual,
                                                       resultadoPotencial, diasEmAberto)];
        }
      }
      j := j + 1;
    }
    assert ordem[..j] == ordem;
  }

  /** The `posicoesAbertas.forEach` of `atualizarPrecos`: each position's
      current price and potential result overwritten in place. */
  method RemarcarTodas(posicoesAbertas: seq<Aberta>, precos: map<string, real>) returns (l: seq<Aberta>)
    ensures l == Remarcadas(posicoesAbertas, precos)
  {
    l := posicoesAbertas;
    var j := 0;
    while j < |l|
      invariant 0 <= j <= |l| == |posicoesAbertas|
      invariant forall k :: 0 <= k < j ==> l[k] == Remarcar(posicoesAbertas[k], PrecoAtual(precos, posicoesAbertas[k].referencia))
      invariant forall k :: j <= k < |l| ==> l[k] == posicoesAbertas[k]
    {
      var posicao := l[j];
      var precoAtual := if posicao.referencia in precos then precos[posicao.referencia] else 0.0;
      var resultadoPotencial := if precoAtual > 0.0 then Resultado(posicao.tipo, posicao.precoMedio, precoAtual, posicao.contratos) else 0.0;
      l := l[j := posicao.(resultadoPotencial := resultadoPotencial, precoAtual := precoAtual)];
      j := j + 1;
    }
  }

  /** The scan of `adicionarTransacao`: past every transaction dated no
      later than `data`. */
  method IndiceInsercao(transacoes: seq<Transacao>, data: int) returns (indiceInsercao: nat)
    ensures indiceInsercao == PontoInsercao(transacoes, data)
  {
    indiceInsercao := 0;
    while indiceInsercao < |transacoes| && transacoes[indiceInsercao].data <= data
      invariant 0 <= indiceInsercao <= |transacoes|
      invariant forall k :: 0 <= k < indiceInsercao ==> transacoes[k].data <= data
    {
      indiceInsercao := indiceInsercao + 1;
    }
    PontoInsercaoUnico(transacoes, data, indiceInsercao);
  }

  class Carteira {
    var precos: map<string, real>
    var transacoes: seq<Transacao>
    var posicoesAbertas: seq<Aberta>
    var posicoesLiquidadas: seq<Liquidada>
    /** The day `calcularPosicoes` last counted `diasEmAberto` from. */
    ghost var diaCalculo: int

    /** The lists are what replaying the (sorted) transactions produces. */
    ghost predicate Valid()
      reads this
    {
      && Ordenada(transacoes)
      && posicoesLiquidadas == Replay(transacoes).liquidadas
      && posicoesAbertas == AbertasDe(Replay(transacoes).mapa, Replay(transacoes).ordem, precos, diaCalculo)
    }

    /** The module's initial state: the default price table, no data. */
    constructor ()
      ensures Valid()
      ensures precos == PrecosIniciais()
      ensures transacoes == [] && posicoesAbertas == [] && posicoesLiquidadas == []
    {
      precos := PrecosIniciais();
      transacoes := [];
      posicoesAbertas := [];
      posicoesLiquidadas := [];
      diaCalculo := 0;
    }

    /** `calcularPosicoes` with `new Date()` as day `hoje`: sorts the
        transactions by date, replays them and rebuilds both lists. */
    method CalcularPosicoes(hoje: int)
      modifies this
      ensures transacoes == Ordenar(old(transacoes)) && precos == old(precos)
      ensures posicoesLiquidadas == Replay(transacoes).liquidadas
      ensures posicoesAbertas == AbertasDe(Replay(transacoes).mapa, Replay(transacoes).ordem, precos, hoje)
      ensures diaCalculo == hoje
      ensures Valid()
    {
      posicoesAbertas := [];
      posicoesLiquidadas := [];
      transacoes := Ordenar(transacoes);
      assert Ordenada(transacoes) by { OrdenarOrdena(old(transacoes)); }
      diaCalculo := hoje;
      var mapa, ordem, liquidadas := ProcessarTransacoes(transacoes);
      posicoesLiquidadas := liquidadas;
      posicoesAbertas := MontarAbertas(mapa, ordem, precos, hoje);
    }

    /** `adicionarTransacao`: scan to the first transaction dated after the
        new one, splice it in there, and recompute the positions. */
    method AdicionarTransacao(t: Transacao, hoje: int)
      requires Valid()
      modifies this
      ensures transacoes == Inserir(old(transacoes), t) && precos == old(precos)
      ensures posicoesLiquidadas == Replay(transacoes).liquidadas
      ensures posicoesAbertas == AbertasDe(Replay(transacoes).mapa, Replay(transacoes).ordem, precos, hoje)
      ensures diaCalculo == hoje
      ensures Valid()
    {
      var indiceInsercao := IndiceInsercao(transacoes, t.data);
      ghost var antes := transacoes;
      transacoes := transacoes[..indiceInsercao] + [t] + transacoes[indiceInsercao..];
      assert transacoes == Inserir(antes, t);
      InserirOrdenada(antes, t);
      OrdenarOrdenada(transacoes);
      CalcularPosicoes(hoje);
    }

    /** `liquidarPosicao`: when `referencia` has an open position, add the
        offsetting transaction dated `hoje`; otherwise change nothing. */
    method LiquidarPosicao(referencia: string, contratos: int, preco: real, hoje: int) returns (encontrada: bool)
      requires Valid()
      modifies this
      ensures encontrada <==> Encontrar(old(posicoesAbertas), referencia).Some?
      ensures encontrada ==> transacoes == Inserir(old(transacoes), Transacao(hoje, referencia,
                               Oposto(Encontrar(old(posicoesAbertas), referencia).value.tipo), contratos, preco))
      ensures encontrada ==> posicoesLiquidadas == Replay(transacoes).liquidadas && diaCalculo == hoje
                             && posicoesAbertas == AbertasDe(Replay(transacoes).mapa, Replay(transacoes).ordem, precos, hoje)
      ensures !encontrada ==> transacoes == old(transacoes) && posicoesAbertas == old(posicoesAbertas)
                              && posicoesLiquidadas == old(posicoesLiquidadas) && diaCalculo == old(diaCalculo)
      ensures precos == old(precos)
      ensures Valid()
    {
      var posicao := Encontrar(posicoesAbertas, referencia);
      if posicao.Some? {
        var tipoLiquidacao := if posicao.value.tipo == Compra then Venda else Compra;
        AdicionarTransacao(Transacao(hoje, referencia, tipoLiquidacao, contratos, preco), hoje);
        return true;
      }
      return false;
    }

    /** `atualizarPrecos`: overwrite the prices of known references, then
        re-value every open position at its reference's price. */
    method AtualizarPrecos(novos: map<string, real>)
      requires Valid()
      modifies this
      ensures precos == PrecosAtualizados(old(precos), novos)
      ensures posicoesAbertas == Remarcadas(old(posicoesAbertas), precos)
      ensures transacoes == old(transacoes) && posicoesLiquidadas == old(posicoesLiquidadas)
      ensures Valid()
    {
      precos := PrecosAtualizados(precos, novos);
      posicoesAbertas := RemarcarTodas(posicoesAbertas, precos);
      RemarcadasAbertas(Replay(transacoes).mapa, Replay(transacoes).ordem, old(precos), precos, diaCalculo);
    }

    /** `simularPreco`: the total result of the open positions of
        `referencia` (or of all of them) if the price were `preco`. */
    method SimularPreco(referencia: string, preco: real) returns (resultadoSimulado: real)
      ensures resultadoSimulado == Simulado(if referencia == TODOS_OS_CONTRATOS then posicoesAbertas
                                            else DaReferencia(posicoesAbertas, referencia), preco)
    {
      var posicoes := if referencia == TODOS_OS_CONTRATOS then posicoesAbertas
                      else DaReferencia(posicoesAbertas, referencia);
      resultadoSimulado := 0.0;
      var i := 0;
      while i < |posicoes|
        invariant 0 <= i <= |posicoes|
        invariant resultadoSimulado == Simulado(posicoes[..i], preco)
      {
        var posicao := posicoes[i];
        // The source's two branches are the two cases of `Resultado`.
        var parcela := Resultado(posicao.tipo, posicao.precoMedio, preco, posicao.contratos);
        assert posicoes[..i + 1][..i] == posicoes[..i];
        resultadoSimulado := resultadoSimulado + parcela;
        i := i + 1;
      }
      assert posicoes[..i] == posicoes;
    }

    /** `resetarDados`: drop every transaction and position, keep the prices. */
    method ResetarDados()
      modifies this
      ensures transacoes == [] && posicoesAbertas == [] && posicoesLiquidadas == []
      ensures precos == old(precos)
      ensures Valid()
    {
      transacoes := [];
      posicoesAbertas := [];
      posicoesLiquidadas := [];
      assert Replay(transacoes) == Inicial;
      assert AbertasDe(map[], [], precos, diaCalculo) == [];
    }

    /** The state effect of `importarDados` once the text is parsed: both
        `precos` and `transacoes` must be present, and then they replace the
        current ones and the positions are recomputed. */
    method ImportarDados(novosPrecos: Option<map<string, real>>, novasTransacoes: Option<seq<Transacao>>, hoje: int)
      returns (importado: bool)
      requires Valid()
      modifies this
      ensures importado <==> novosPrecos.Some? && novasTransacoes.Some?
      ensures importado ==> precos == novosPrecos.value && transacoes == Ordenar(novasTransacoes.value)
      ensures importado ==> posicoesLiquidadas == Replay(transacoes).liquidadas && diaCalculo == hoje
                            && posicoesAbertas == AbertasDe(Replay(transacoes).mapa, Replay(transacoes).ordem, precos, hoje)
      ensures !importado ==> transacoes == old(transacoes) && precos == old(precos)
                             && posicoesAbertas == old(posicoesAbertas) && posicoesLiquidadas == old(posicoesLiquidadas)
                             && diaCalculo == old(diaCalculo)
      ensures Valid()
    {
      if novosPrecos.Some? && novasTransacoes.Some? {
        precos := novosPrecos.value;
        transacoes := novasTransacoes.value;
        CalcularPosicoes(hoje);
        return true;
      }
      return false;
    }
  }

  // ---------------------------------------------------------------------
  // Properties
  // ---------------------------------------------------------------------

  /** Re-valuing the open-position list at new prices gives the list that
      `calcularPosicoes` would build at those prices: `atualizarPrecos` keeps
      the positions in step with the prices. */
  lemma {:induction false} RemarcadasAbertas(mapa: map<string, Posicao>, ordem: seq<string>,
                                            antigos: map<string, real>, novos: map<string, real>, hoje: int)
    ensures Remarcadas(AbertasDe(mapa, ordem, antigos, hoje), novos) == AbertasDe(mapa, ordem, novos, hoje)
  {
    if ordem != [] {
      var init, r := ordem[..|ordem| - 1], ordem[|ordem| - 1];
      RemarcadasAbertas(mapa, init, antigos, novos, hoje);
      var a0 := AbertasDe(mapa, init, antigos, hoje);
      if r in mapa && mapa[r].saldo != 0 {
        var u := AbertaDe(r, mapa[r], PrecoAtual(antigos, r), hoje);
        RemarcadasConcat(a0, [u], novos);
        RemarcarAbertaDe(r, mapa[r], PrecoAtual(antigos, r), PrecoAtual(novos, r), hoje);
      } else {
        assert AbertasDe(mapa, ordem, antigos, hoje) == a0 + [];
        assert a0 + [] == a0;
      }
    }
  }

  /** Re-valuing one open position at a new price is building it at that
      price. */
  lemma RemarcarAbertaDe(r: string, p: Posicao, antigo: real, novo: real, hoje: int)
    requires p.saldo != 0
    ensures Remarcar(AbertaDe(r, p, antigo, hoje), novo) == AbertaDe(r, p, novo, hoje)
  {
  }

  lemma RemarcadasConcat(a: seq<Aberta>, b: seq<Aberta>, precos: map<string, real>)
    ensures Remarcadas(a + b, precos) == Remarcadas(a, precos) + Remarcadas(b, precos)
  {
  }

  /** The simulated result moves linearly with the price: raising it by `d`
      adds `d` * 330 per net long contract. */
  lemma {:induction false} SimuladoLinear(l: seq<Aberta>, p: real, d: real)
    ensures Simulado(l, p + d) == Simulado(l, p) + d * ARROBAS * ExposicaoLiquida(l) as real
  {
    if l != [] {
      SimuladoLinear(l[..|l| - 1], p, d);
    }
  }

  /** Long contracts minus short contracts. */
  function ExposicaoLiquida(l: seq<Aberta>): int
  {
    if l == [] then 0
    else ExposicaoLiquida(l[..|l| - 1]) + (if l[|l| - 1].tipo == Compra then l[|l| - 1].contratos else -l[|l| - 1].contratos)
  }

  /** Simulating at each position's own current (positive) price gives back
      the potential results `calcularPosicoes` shows. */
  lemma {:induction false} SimuladoNoPrecoAtual(l: seq<Aberta>, preco: real, mapa: map<string, Posicao>, ordem: seq<string>,
                                               precos: map<string, real>, hoje: int)
    requires preco > 0.0
    requires l == AbertasDe(mapa, ordem, precos, hoje)
    requires forall i :: 0 <= i < |l| ==> l[i].precoAtual == preco
    ensures Simulado(l, preco) == SomaPotencial(l)
    decreases |ordem|
  {
    if ordem != [] {
      var l0 := AbertasDe(mapa, ordem[..|ordem| - 1], precos, hoje);
      assert forall i :: 0 <= i < |l0| ==> l0[i] == l[i];
      SimuladoNoPrecoAtual(l0, preco, mapa, ordem[..|ordem| - 1], precos, hoje);
      if |l| > |l0| {
        assert l[..|l| - 1] == l0;
      } else {
        assert l == l0;
      }
    }
  }

  /** The sum of the potential results. */
  function SomaPotencial(l: seq<Aberta>): real
  {
    if l == [] then 0.0 else SomaPotencial(l[..|l| - 1]) + l[|l| - 1].resultadoPotencial
  }

  /** Liquidating the whole of an open position on a day no earlier than any
      transaction closes it: the reference ends flat and has no open
      position, and one more liquidation record is listed. */
  lemma LiquidarTudo(ts: seq<Transacao>, t: Transacao, precos: map<string, real>, hoje: int)
    requires Ordenada(ts)
    requires forall i :: 0 <= i < |ts| ==> ts[i].data <= t.data
    requires t.referencia in Replay(ts).mapa
    requires var s := Replay(ts).mapa[t.referencia].saldo;
      s != 0 && t.contratos == Abs(s) && t.tipo == (if s > 0 then Venda else Compra)
    ensures Replay(Inserir(ts, t)).mapa[t.referencia] == Zerada
    ensures |Replay(Inserir(ts, t)).liquidadas| == |Replay(ts).liquidadas| + 1
    ensures var e := Replay(Inserir(ts, t));
      var l := AbertasDe(e.mapa, e.ordem, precos, hoje);
      forall i :: 0 <= i < |l| ==> l[i].referencia != t.referencia
  {
    var k := PontoInsercao(ts, t.data);
    assert k == |ts|;
    assert Inserir(ts, t) == ts + [t];
    assert (ts + [t])[..|ts|] == ts;
    PassoZera(Replay(ts).mapa[t.referencia], t);
    var e := Replay(ts + [t]);
    ReplayBemFormado(ts + [t]);
    AbertaDaReferencia(e.mapa, e.ordem, precos, hoje, t.referencia, 0);
  }
}

=== FILE: graficos.dfy ===
/** The data behind the dashboard charts of js/charts.js: per-reference sums
    of liquidation results and of open contracts, the bar colours, and the
    win/loss counts per side. Chart.js itself is not modelled. */
module Graficos {
  import opened Transacoes
  import opened Motor
  import opened Metricas

  /** One value to be summed under a reference (a record's `resultado`, a
      position's `contratos`); JavaScript numbers are modelled as reals. */
  datatype Parcela = Parcela(referencia: string, valor: real)

  /** `Object.keys` of the accumulator: each reference once, in the order it
      first appears. */
  function Rotulos(itens: seq<Parcela>): (l: seq<string>)
    ensures |l| <= |itens|
  {
    if itens == [] then []
    else
      var anteriores := Rotulos(itens[..|itens| - 1]);
      var r := itens[|itens| - 1].referencia;
      if r in anteriores then anteriores else anteriores + [r]
  }

  /** The sum of the values filed under `r`. */
  function SomaDe(itens: seq<Parcela>, r: string): real
  {
    if itens == [] then 0.0
    else SomaDe(itens[..|itens| - 1], r) + (if itens[|itens| - 1].referencia == r then itens[|itens| - 1].valor else 0.0)
  }

  /** The sum of all values. */
  function Total(itens: seq<Parcela>): real
  {
    if itens == [] then 0.0 else Total(itens[..|itens| - 1]) + itens[|itens| - 1].valor
  }

  /** The sum of a list of chart values. */
  function Soma(data: seq<real>): real
  {
    if data == [] then 0.0 else Soma(data[..|data| - 1]) + data[|data| - 1]
  }

  /** The labels are the references that occur, each exactly once. */
  lemma {:induction false} RotulosDistintos(itens: seq<Parcela>)
    ensures forall i, j :: 0 <= i < j < |Rotulos(itens)| ==> Rotulos(itens)[i] != Rotulos(itens)[j]
    ensures forall r :: r in Rotulos(itens) <==> exists k :: 0 <= k < |itens| && itens[k].referencia == r
  {
    if itens != [] {
      var init := itens[..|itens| - 1];
      RotulosDistintos(init);
      forall r | r in Rotulos(itens)
        ensures exists k :: 0 <= k < |itens| && itens[k].referencia == r
      {
        if r in Rotulos(init) {
          var k :| 0 <= k < |init| && init[k].referencia == r;
          assert itens[k] == init[k];
        } else {
          assert itens[|itens| - 1].referencia == r;
        }
      }
      forall r | exists k :: 0 <= k < |itens| && itens[k].referencia == r
        ensures r in Rotulos(itens)
      {
        var k :| 0 <= k < |itens| && itens[k].referencia == r;
        if k < |init| {
          assert init[k] == itens[k];
        }
      }
    }
  }

  /** A reference that never occurs sums to 0. */
  lemma {:induction false} SomaDeAusente(itens: seq<Parcela>, r: string)
    requires r !in Rotulos(itens)
    ensures SomaDe(itens, r) == 0.0
  {
    if itens != [] {
      SomaDeAusente(itens[..|itens| - 1], r);
    }
  }

  /** The per-label sums, in label order. */
  function Somas(itens: seq<Parcela>, rotulos: seq<string>): (data: seq<real>)
    ensures |data| == |rotulos|
    ensures forall i :: 0 <= i < |rotulos| ==> data[i] == SomaDe(itens, rotulos[i])
  {
    if rotulos == [] then [] else Somas(itens, rotulos[..|rotulos| - 1]) + [SomaDe(itens, rotulos[|rotulos| - 1])]
  }

  lemma SomaUltimo(a: seq<real>, y: real)
    ensures Soma(a + [y]) == Soma(a) + y
  {
    assert (a + [y])[..|a|] == a;
  }

  /** Adding one value to the items adds it to the sum over a list of
      distinct labels exactly when its reference is among them. */
  lemma {:induction false} SomasAcrescimo(itens: seq<Parcela>, x: Parcela, rotulos: seq<string>)
    requires forall i, j :: 0 <= i < j < |rotulos| ==> rotulos[i] != rotulos[j]
    ensures Soma(Somas(itens + [x], rotulos))
         == Soma(Somas(itens, rotulos)) + (if x.referencia in rotulos then x.valor else 0.0)
  {
    var s := itens + [x];
    if rotulos != [] {
      var init, r := rotulos[..|rotulos| - 1], rotulos[|rotulos| - 1];
      assert rotulos == init + [r];
      SomasAcrescimo(itens, x, init);
      assert s[..|s| - 1] == itens;
      assert SomaDe(s, r) == SomaDe(itens, r) + (if x.referencia == r then x.valor else 0.0);
      assert Somas(s, rotulos) == Somas(s, init) + [SomaDe(s, r)];
      assert Somas(itens, rotulos) == Somas(itens, init) + [SomaDe(itens, r)];
      SomaUltimo(Somas(s, init), SomaDe(s, r));
      SomaUltimo(Somas(itens, init), SomaDe(itens, r));
      assert x.referencia in rotulos <==> x.referencia in init || x.referencia == r;
      assert x.referencia == r ==> x.referencia !in init;
    }
  }

  /** The grouped values add up to the total of all values: grouping loses
      and duplicates nothing. */
  lemma {:induction false} SomaAgrupada(itens: seq<Parcela>)
    ensures Soma(Somas(itens, Rotulos(itens))) == Total(itens)
  {
    if itens != [] {
      var init, x := itens[..|itens| - 1], itens[|itens| - 1];
      var r0, r := Rotulos(init), Rotulos(itens);
      assert itens == init + [x];
      SomaAgrupada(init);
      RotulosDistintos(itens);
      SomasAcrescimo(init, x, r);
      assert x.referencia in r;
      assert Soma(Somas(itens, r)) == Soma(Somas(init, r)) + x.valor;
      if x.referencia !in r0 {
        SomaDeAusente(init, x.referencia);
        assert r == r0 + [x.referencia];
        assert r[..|r| - 1] == r0;
        assert Somas(init, r) == Somas(init, r0) + [0.0];
        SomaUltimo(Somas(init, r0), 0.0);
      }
    }
  }

  /** The `forEach` that fills the accumulator object, then `Object.keys`
      and `labels.map`: one label per distinct reference, in order of first
      appearance, each with the sum of its values. */
  method Agrupar(itens: seq<Parcela>) returns (labels: seq<string>, data: seq<real>)
    ensures labels == Rotulos(itens)
    ensures data == Somas(itens, labels)
  {
    var porReferencia: map<string, real> := map[];
    labels := [];
    var i := 0;
    while i < |itens|
      invariant 0 <= i <= |itens|
      invariant labels == Rotulos(itens[..i])
      invariant forall r :: r in porReferencia <==> r in labels
      invariant forall r :: r in porReferencia ==> porReferencia[r] == SomaDe(itens[..i], r)
    {
      var item := itens[i];
      assert itens[..i + 1][..i] == itens[..i];
      if item.referencia !in porReferencia {
        porReferencia := porReferencia[item.referencia := 0.0];
        labels := labels + [item.referencia];
        SomaDeAusente(itens[..i], item.referencia);
      }
      porReferencia := porReferencia[item.referencia := porReferencia[item.referencia] + item.valor];
      i := i + 1;
    }
    assert itens[..i] == itens;
    data := [];
    var j := 0;
    while j < |labels|
      invariant 0 <= j <= |labels|
      invariant data == Somas(itens, labels[..j])
    {
      assert labels[..j + 1][..j] == labels[..j];
      data := data + [porReferencia[labels[j]]];
      j := j + 1;
    }
    assert labels[..j] == labels;
  }

  // ---------------------------------------------------------------------
  // Result by reference (js/charts.js:146-180)
  // ---------------------------------------------------------------------

  /** The two bar colours. */
  datatype Cor = Positiva | Negativa

  /** `value >= 0 ? positive : negative`. */
  function Cores(data: seq<real>): (c: seq<Cor>)
    ensures |c| == |data|
    ensures forall i :: 0 <= i < |data| ==> (c[i] == Positiva <==> data[i] >= 0.0)
  {
    if data == [] then [] else Cores(data[..|data| - 1]) + [if data[|data| - 1] >= 0.0 then Positiva else Negativa]
  }

  /** Each record's `resultado` filed under its reference. */
  function ParcelasResultado(ls: seq<Liquidada>): (p: seq<Parcela>)
    ensures |p| == |ls|
    ensures forall i :: 0 <= i < |ls| ==> p[i] == Parcela(ls[i].referencia, ls[i].resultado)
  {
    if ls == [] then [] else ParcelasResultado(ls[..|ls| - 1]) + [Parcela(ls[|ls| - 1].referencia, ls[|ls| - 1].resultado)]
  }

  /** The labels, values and colours of the result-by-reference chart;
      no records give an empty chart. In that case the chart keeps its old
      colour list, but with no bars no colour is shown, so the model
      returns none. */
  method GraficoResultado(posicoesLiquidadas: seq<Liquidada>) returns (labels: seq<string>, data: seq<real>, cores: seq<Cor>)
    ensures posicoesLiquidadas == [] ==> labels == [] && data == [] && cores == []
    ensures labels == Rotulos(ParcelasResultado(posicoesLiquidadas))
    ensures data == Somas(ParcelasResultado(posicoesLiquidadas), labels)
    ensures cores == Cores(data)
  {
    if |posicoesLiquidadas| == 0 {
      return [], [], [];
    }
    labels, data := Agrupar(ParcelasResultado(posicoesLiquidadas));
    cores := Cores(data);
  }

  /** The result chart: every record's reference is a label, every label is
      some record's reference, labels are distinct, and the bars add up to
      the total result of the liquidations. */
  lemma GraficoResultadoTotal(ls: seq<Liquidada>)
    ensures var itens := ParcelasResultado(ls);
      var labels := Rotulos(itens);
      && (forall i, j :: 0 <= i < j < |labels| ==> labels[i] != labels[j])
      && (forall r :: r in labels <==> exists k :: 0 <= k < |ls| && ls[k].referencia == r)
      && Soma(Somas(itens, labels)) == SomaResultados(ls)
  {
    var itens := ParcelasResultado(ls);
    var labels := Rotulos(itens);
    RotulosDistintos(itens);
    SomaAgrupada(itens);
    TotalResultados(ls);
    forall k | 0 <= k < |ls|
      ensures ls[k].referencia in labels
    {
      assert itens[k].referencia == ls[k].referencia;
    }
  }

  lemma {:induction false} TotalResultados(ls: seq<Liquidada>)
    ensures Total(ParcelasResultado(ls)) == SomaResultados(ls)
  {
    if ls != [] {
      TotalResultados(ls[..|ls| - 1]);
      var p := ParcelasResultado(ls);
      assert p[..|p| - 1] == ParcelasResultado(ls[..|ls| - 1]);
    }
  }

  // ---------------------------------------------------------------------
  // Distribution and exposure by reference (js/charts.js:251-279, 452-481)
  // ---------------------------------------------------------------------

  /** Each open position's `contratos` filed under its reference. */
  function ParcelasContratos(l: seq<Aberta>): (p: seq<Parcela>)
    ensures |p| == |l|
    ensures forall i :: 0 <= i < |l| ==> p[i] == Parcela(l[i].referencia, l[i].contratos as real)
  {
    if l == [] then [] else ParcelasContratos(l[..|l| - 1]) + [Parcela(l[|l| - 1].referencia, l[|l| - 1].contratos as real)]
  }

  /** The total number of open contracts. */
  function ContratosAbertos(l: seq<Aberta>): int
  {
    if l == [] then 0 else ContratosAbertos(l[..|l| - 1]) + l[|l| - 1].contratos
  }

  /** The labels and values of the distribution chart, and of the exposure
      chart, which groups the same way; no open positions give an empty
      chart. */
  method GraficoContratos(posicoesAbertas: seq<Aberta>) returns (labels: seq<string>, data: seq<real>)
    ensures posicoesAbertas == [] ==> labels == [] && data == []
    ensures labels == Rotulos(ParcelasContratos(posicoesAbertas))
    ensures data == Somas(ParcelasContratos(posicoesAbertas), labels)
  {
    if |posicoesAbertas| == 0 {
      return [], [];
    }
    labels, data := Agrupar(ParcelasContratos(posicoesAbertas));
  }

  /** The contract charts: labels are distinct and are exactly the references
      of the open positions, and the slices add up to the total number of
      open contracts. */
  lemma GraficoContratosTotal(l: seq<Aberta>)
    ensures var itens := ParcelasContratos(l);
      var labels := Rotulos(itens);
      && (forall i, j :: 0 <= i < j < |labels| ==> labels[i] != labels[j])
      && (forall r :: r in labels <==> exists k :: 0 <= k < |l| && l[k].referencia == r)
      && Soma(Somas(itens, labels)) == ContratosAbertos(l) as real
  {
    var itens := ParcelasContratos(l);
    var labels := Rotulos(itens);
    RotulosDistintos(itens);
    SomaAgrupada(itens);
    TotalContratos(l);
    forall k | 0 <= k < |l|
      ensures l[k].referencia in labels
    {
      assert itens[k].referencia == l[k].referencia;
    }
  }

  lemma {:induction false} TotalContratos(l: seq<Aberta>)
    ensures Total(ParcelasContratos(l)) == ContratosAbertos(l) as real
  {
    if l != [] {
      TotalContratos(l[..|l| - 1]);
      var p := ParcelasContratos(l);
      assert p[..|p| - 1] == ParcelasContratos(l[..|l| - 1]);
    }
  }

  // ---------------------------------------------------------------------
  // Liquidations by strategy (js/charts.js:355-378)
  // ---------------------------------------------------------------------

  /** The number of records of side `tipo` whose result is positive
      (`positivas`) or not positive (zero counts as a loss). */
  function Contar(ls: seq<Liquidada>, tipo: Tipo, positivas: bool): (n: nat)
    ensures n <= |ls|
  {
    if ls == [] then 0
    else
      var x := ls[|ls| - 1];
      Contar(ls[..|ls| - 1], tipo, positivas) + (if x.tipo == tipo && (x.resultado > 0.0) == positivas then 1 else 0)
  }

  /** The number of records of side `tipo`. */
  function DoLado(ls: seq<Liquidada>, tipo: Tipo): (n: nat)
    ensures n <= |ls|
  {
    if ls == [] then 0 else DoLado(ls[..|ls| - 1], tipo) + (if ls[|ls| - 1].tipo == tipo then 1 else 0)
  }

  /** The two datasets of the strategy chart: `[positivas, negativas]` for
      Compra and for Venda. */
  datatype Estrategia = Estrategia(compra: seq<nat>, venda: seq<nat>)

  function ContagemEstrategia(ls: seq<Liquidada>): (e: Estrategia)
    ensures ls == [] ==> e == Estrategia([0, 0], [0, 0])
    ensures |e.compra| == 2 && |e.venda| == 2
  {
    if |ls| == 0 then Estrategia([0, 0], [0, 0])
    else Estrategia([Contar(ls, Compra, true), Contar(ls, Compra, false)],
                    [Contar(ls, Venda, true), Contar(ls, Venda, false)])
  }

  /** Each side's positive and non-positive counts partition that side's
      records, the four counts partition all records, and the positive
      counts together are the winning trades the metrics count. */
  lemma {:induction false} EstrategiaParticiona(ls: seq<Liquidada>)
    ensures var e := ContagemEstrategia(ls);
      && e.compra[0] + e.compra[1] == DoLado(ls, Compra)
      && e.venda[0] + e.venda[1] == DoLado(ls, Venda)
      && DoLado(ls, Compra) + DoLado(ls, Venda) == |ls|
      && e.compra[0] + e.venda[0] == ContaPositivas(ls)
  {
    if ls != [] {
      var init := ls[..|ls| - 1];
      EstrategiaParticiona(init);
      if init == [] {
        assert Contar(init, Compra, true) == 0 && Contar(init, Compra, false) == 0;
        assert Contar(init, Venda, true) == 0 && Contar(init, Venda, false) == 0;
      }
    }
  }

  /** A record with result 0 counts as a loss of its side. */
  lemma ZeroConta(x: Liquidada)
    requires x.resultado == 0.0
    ensures ContagemEstrategia([x]) == if x.tipo == Compra then Estrategia([0, 1], [0, 0]) else Estrategia([0, 0], [0, 1])
  {
    assert [x][..0] == [];
  }
}

=== FILE: metricas.dfy ===
/** `calcularMetricas` (data_api.js): performance figures over the
    liquidation records, each ratio guarded against a zero denominator. */
module Metricas {
  import opened Basico
  import opened Transacoes
  import opened Motor
  import opened Posicoes

  /** The object `calcularMetricas` returns, without the Sharpe index and
      the volatility. */
  datatype Metricas = Metricas(
    resultadoAcumulado: real, contratosLiquidados: int, taxaAcerto: real, fatorLucro: real,
    resultadoPorContrato: real, spreadMedio: real, resultadoPorDia: real, tempoMedioInvestido: real,
    maiorGanho: real, maiorPerda: real, roi: real, drawdownMaximo: real)

  /** Sum of `resultado`. */
  function SomaResultados(ls: seq<Liquidada>): real
  {
    if ls == [] then 0.0 else SomaResultados(ls[..|ls| - 1]) + ls[|ls| - 1].resultado
  }

  /** Sum of `contratos`. */
  function SomaContratos(ls: seq<Liquidada>): int
  {
    if ls == [] then 0 else SomaContratos(ls[..|ls| - 1]) + ls[|ls| - 1].contratos
  }

  /** Number of records with a positive result. */
  function ContaPositivas(ls: seq<Liquidada>): (n: nat)
    ensures n <= |ls|
  {
    if ls == [] then 0 else ContaPositivas(ls[..|ls| - 1]) + (if ls[|ls| - 1].resultado > 0.0 then 1 else 0)
  }

  /** Sum of the positive results. */
  function GanhoTotal(ls: seq<Liquidada>): (g: real)
    ensures g >= 0.0
  {
    if ls == [] then 0.0 else GanhoTotal(ls[..|ls| - 1]) + (if ls[|ls| - 1].resultado > 0.0 then ls[|ls| - 1].resultado else 0.0)
  }

  /** Sum of the negative results. */
  function SomaPerdas(ls: seq<Liquidada>): (p: real)
    ensures p <= 0.0
  {
    if ls == [] then 0.0 else SomaPerdas(ls[..|ls| - 1]) + (if ls[|ls| - 1].resultado < 0.0 then ls[|ls| - 1].resultado else 0.0)
  }

  /** Sum of `|precoSaida - precoEntrada|`. */
  function SomaSpread(ls: seq<Liquidada>): (s: real)
    ensures s >= 0.0
  {
    if ls == [] then 0.0 else SomaSpread(ls[..|ls| - 1]) + AbsReal(ls[|ls| - 1].precoSaida - ls[|ls| - 1].precoEntrada)
  }

  /** Sum of `diasInvestidos`. */
  function DiasTotais(ls: seq<Liquidada>): int
  {
    if ls == [] then 0 else DiasTotais(ls[..|ls| - 1]) + ls[|ls| - 1].diasInvestidos
  }

  /** Sum of `precoEntrada * contratos`. */
  function Investimento(ls: seq<Liquidada>): real
  {
    if ls == [] then 0.0 else Investimento(ls[..|ls| - 1]) + ls[|ls| - 1].precoEntrada * ls[|ls| - 1].contratos as real
  }

  /** `Math.max(...resultados, 0)`: the largest result, or 0 if that is larger. */
  function MaiorResultado(ls: seq<Liquidada>): (m: real)
    ensures m >= 0.0
    ensures forall i :: 0 <= i < |ls| ==> ls[i].resultado <= m
    ensures m == 0.0 || exists i :: 0 <= i < |ls| && ls[i].resultado == m
  {
    if ls == [] then 0.0 else MaxReal(MaiorResultado(ls[..|ls| - 1]), ls[|ls| - 1].resultado)
  }

  /** `Math.min(...resultados, 0)`: the smallest result, or 0 if that is smaller. */
  function MenorResultado(ls: seq<Liquidada>): (m: real)
    ensures m <= 0.0
    ensures forall i :: 0 <= i < |ls| ==> m <= ls[i].resultado
    ensures m == 0.0 || exists i :: 0 <= i < |ls| && ls[i].resultado == m
  {
    if ls == [] then 0.0 else MinReal(MenorResultado(ls[..|ls| - 1]), ls[|ls| - 1].resultado)
  }

  /** `parte / todo * 100`, where `0 <= parte <= todo`, lies in [0, 100]. */
  lemma Percentual(parte: nat, todo: nat)
    requires parte <= todo
    ensures todo > 0 ==> 0.0 <= parte as real / todo as real * 100.0 <= 100.0
  {
    if todo > 0 {
      var q := parte as real / todo as real;
      assert q * todo as real == parte as real;
      if q > 1.0 {
        assert q * todo as real > todo as real;
      }
    }
  }

  /** The metrics of a list of liquidation records. Every ratio is 0 when
      its denominator is not positive (`MetricasRazoes` gives its value
      otherwise); the win rate is a percentage; the best result is at least
      0 and no result beats it, the worst at most 0 and no result is below
      it (`MetricasExtremos` says which they are); the drawdown is the worst
      loss's size. */
  function CalcularMetricas(ls: seq<Liquidada>): (m: Metricas)
    ensures m.resultadoAcumulado == SomaResultados(ls) && m.contratosLiquidados == SomaContratos(ls)
    ensures ls == [] ==> m.taxaAcerto == 0.0 && m.spreadMedio == 0.0 && m.tempoMedioInvestido == 0.0
    ensures 0.0 <= m.taxaAcerto <= 100.0
    ensures m.fatorLucro >= 0.0
    ensures SomaPerdas(ls) == 0.0 ==> m.fatorLucro == 0.0
    ensures SomaContratos(ls) <= 0 ==> m.resultadoPorContrato == 0.0
    ensures DiasTotais(ls) <= 0 ==> m.resultadoPorDia == 0.0
    ensures Investimento(ls) <= 0.0 ==> m.roi == 0.0
    ensures m.spreadMedio >= 0.0
    ensures m.maiorGanho >= 0.0 && forall i :: 0 <= i < |ls| ==> ls[i].resultado <= m.maiorGanho
    ensures m.maiorPerda <= 0.0 && forall i :: 0 <= i < |ls| ==> m.maiorPerda <= ls[i].resultado
    ensures m.drawdownMaximo == -m.maiorPerda
  {
    var n := |ls|;
    var resultadoAcumulado := SomaResultados(ls);
    var contratosLiquidados := SomaContratos(ls);
    var taxaAcerto := if n > 0 then ContaPositivas(ls) as real / n as real * 100.0 else 0.0;
    var ganhoTotal := GanhoTotal(ls);
    var perdaTotal := AbsReal(SomaPerdas(ls));
    var fatorLucro := if perdaTotal > 0.0 then ganhoTotal / perdaTotal else 0.0;
    var resultadoPorContrato := if contratosLiquidados > 0 then resultadoAcumulado / contratosLiquidados as real else 0.0;
    var spreadMedio := if n > 0 then SomaSpread(ls) / n as real else 0.0;
    var diasTotais := DiasTotais(ls);
    var resultadoPorDia := if diasTotais > 0 then resultadoAcumulado / diasTotais as real else 0.0;
    var tempoMedioInvestido := if n > 0 then diasTotais as real / n as real else 0.0;
    var maiorGanho := if n > 0 then MaiorResultado(ls) else 0.0;
    var maiorPerda := if n > 0 then MenorResultado(ls) else 0.0;
    var investimentoTotal := Investimento(ls);
    var roi := if investimentoTotal > 0.0 then resultadoAcumulado / investimentoTotal * 100.0 else 0.0;
    Percentual(ContaPositivas(ls), n);
    Metricas(resultadoAcumulado, contratosLiquidados, taxaAcerto, fatorLucro, resultadoPorContrato, spreadMedio,
             resultadoPorDia, tempoMedioInvestido, maiorGanho, maiorPerda, roi, AbsReal(maiorPerda))
  }

  /** With no records every figure is 0. */
  lemma MetricasVazias()
    ensures CalcularMetricas([]) == Metricas(0.0, 0, 0.0, 0.0, 0.0, 0.0, 0.0, 0.0, 0.0, 0.0, 0.0, 0.0)
  {
  }

  /** The best and the worst result are `Math.max` and `Math.min` of the
      results and 0: each is 0 or some record's result. */
  lemma MetricasExtremos(ls: seq<Liquidada>)
    ensures CalcularMetricas(ls).maiorGanho == MaiorResultado(ls)
    ensures CalcularMetricas(ls).maiorPerda == MenorResultado(ls)
    ensures CalcularMetricas(ls).maiorGanho == 0.0 || exists i :: 0 <= i < |ls| && ls[i].resultado == CalcularMetricas(ls).maiorGanho
    ensures CalcularMetricas(ls).maiorPerda == 0.0 || exists i :: 0 <= i < |ls| && ls[i].resultado == CalcularMetricas(ls).maiorPerda
  {
  }

  /** Each ratio of `calcularMetricas` is its quotient whenever its
      denominator is positive. */
  lemma MetricasRazoes(ls: seq<Liquidada>)
    ensures var m := CalcularMetricas(ls);
      && (|ls| > 0 ==> m.taxaAcerto == ContaPositivas(ls) as real / |ls| as real * 100.0)
      && (|ls| > 0 ==> m.spreadMedio == SomaSpread(ls) / |ls| as real)
      && (|ls| > 0 ==> m.tempoMedioInvestido == DiasTotais(ls) as real / |ls| as real)
      && (SomaPerdas(ls) < 0.0 ==> m.fatorLucro == GanhoTotal(ls) / -SomaPerdas(ls))
      && (SomaContratos(ls) > 0 ==> m.resultadoPorContrato == SomaResultados(ls) / SomaContratos(ls) as real)
      && (DiasTotais(ls) > 0 ==> m.resultadoPorDia == SomaResultados(ls) / DiasTotais(ls) as real)
      && (Investimento(ls) > 0.0 ==> m.roi == SomaResultados(ls) / Investimento(ls) * 100.0)
  {
  }

  /** The accumulated result splits into the gains and the losses; so the
      profit factor compares the two halves of the same total. */
  lemma {:induction false} ResultadoDecomposto(ls: seq<Liquidada>)
    ensures SomaResultados(ls) == GanhoTotal(ls) + SomaPerdas(ls)
  {
    if ls != [] {
      ResultadoDecomposto(ls[..|ls| - 1]);
    }
  }

  /** With nonnegative holding periods (as every record the engine emits
      has) the average holding time is not negative either. */
  lemma TempoMedioNaoNegativo(ls: seq<Liquidada>)
    requires forall i :: 0 <= i < |ls| ==> ls[i].diasInvestidos >= 0
    ensures DiasTotais(ls) >= 0
    ensures CalcularMetricas(ls).tempoMedioInvestido >= 0.0
  {
    DiasNaoNegativos(ls);
    if ls != [] {
      QuocienteNaoNegativo(DiasTotais(ls) as real, |ls| as real);
    }
  }

  lemma {:induction false} DiasNaoNegativos(ls: seq<Liquidada>)
    requires forall i :: 0 <= i < |ls| ==> ls[i].diasInvestidos >= 0
    ensures DiasTotais(ls) >= 0
  {
    if ls != [] {
      DiasNaoNegativos(ls[..|ls| - 1]);
    }
  }

  lemma QuocienteNaoNegativo(x: real, y: real)
    requires x >= 0.0 && y > 0.0
    ensures x / y >= 0.0
  {
  }

  /** With positive sizes (as every record the engine emits has) the
      closed-contract count is positive exactly when there are records, so
      `resultadoPorContrato` is 0 only for an empty list. */
  lemma {:induction false} ContratosPositivos(ls: seq<Liquidada>)
    requires forall i :: 0 <= i < |ls| ==> ls[i].contratos > 0
    ensures SomaContratos(ls) >= |ls|
    ensures SomaContratos(ls) > 0 <==> ls != []
  {
    if ls != [] {
      ContratosPositivos(ls[..|ls| - 1]);
    }
  }

  /** Over the records the engine emits for positive sizes, the guards only
      fire on an empty list: the closed-contract count is positive once there
      is a record, and the average holding time is never negative. */
  lemma MetricasDoReplay(ts: seq<Transacao>)
    requires Positivas(ts)
    ensures var ls := Replay(ts).liquidadas;
      && (CalcularMetricas(ls).contratosLiquidados > 0 <==> ls != [])
      && CalcularMetricas(ls).tempoMedioInvestido >= 0.0
  {
    ReplayRegistros(ts);
    ContratosPositivos(Replay(ts).liquidadas);
    TempoMedioNaoNegativo(Replay(ts).liquidadas);
  }

  /** A worked case on one reference: buy 10 at 300 on day 1, sell 4 at 310
      on day 5, sell 10 at 290 on day 10. The second trade closes 4 for
      +13200 after 4 days; the third closes the remaining 6 for -19800 after
      9 days and reverses into a short of 4 at 290 from day 10. The metrics
      then show a total of -6600, a 50% win rate, a best result of 13200 and
      a worst of -19800. */
  lemma Exemplo()
    ensures var ts := [Transacao(1, "BGIK25", Compra, 10, 300.0), Transacao(5, "BGIK25", Venda, 4, 310.0),
                       Transacao(10, "BGIK25", Venda, 10, 290.0)];
      var e := Replay(ts);
      var m := CalcularMetricas(e.liquidadas);
      && e.liquidadas == [Liquidada("BGIK25", Compra, 4, 300.0, 310.0, 13200.0, 4, 5),
                          Liquidada("BGIK25", Compra, 6, 300.0, 290.0, -19800.0, 9, 10)]
      && e.mapa == map["BGIK25" := Posicao(-4, 290.0, Some(10))]
      && m.resultadoAcumulado == -6600.0 && m.taxaAcerto == 50.0
      && m.maiorGanho == 13200.0 && m.maiorPerda == -19800.0
  {
    ExemploReplay();
    ExemploMetricas();
  }

  /** The three steps of the worked case, one record at a time. */
  lemma ExemploPassos()
    ensures var t1, t2, t3 := Transacao(1, "BGIK25", Compra, 10, 300.0), Transacao(5, "BGIK25", Venda, 4, 310.0),
                              Transacao(10, "BGIK25", Venda, 10, 290.0);
      && Liquidacao(Zerada, t1) == None && Apos(Zerada, t1) == Posicao(10, 300.0, Some(1))
      && Liquidacao(Posicao(10, 300.0, Some(1)), t2) == Some(Liquidada("BGIK25", Compra, 4, 300.0, 310.0, 13200.0, 4, 5))
      && Apos(Posicao(10, 300.0, Some(1)), t2) == Posicao(6, 300.0, Some(1))
      && Liquidacao(Posicao(6, 300.0, Some(1)), t3) == Some(Liquidada("BGIK25", Compra, 6, 300.0, 290.0, -19800.0, 9, 10))
      && Apos(Posicao(6, 300.0, Some(1)), t3) == Posicao(-4, 290.0, Some(10))
  {
  }

  /** The replay of the worked case. */
  lemma ExemploReplay()
    ensures var ts := [Transacao(1, "BGIK25", Compra, 10, 300.0), Transacao(5, "BGIK25", Venda, 4, 310.0),
                       Transacao(10, "BGIK25", Venda, 10, 290.0)];
      && Replay(ts).liquidadas == [Liquidada("BGIK25", Compra, 4, 300.0, 310.0, 13200.0, 4, 5),
                                   Liquidada("BGIK25", Compra, 6, 300.0, 290.0, -19800.0, 9, 10)]
      && Replay(ts).mapa == map["BGIK25" := Posicao(-4, 290.0, Some(10))]
  {
    var t1, t2, t3 := Transacao(1, "BGIK25", Compra, 10, 300.0), Transacao(5, "BGIK25", Venda, 4, 310.0),
                      Transacao(10, "BGIK25", Venda, 10, 290.0);
    var ts := [t1, t2, t3];
    ExemploPassos();
    var p1, p2 := Posicao(10, 300.0, Some(1)), Posicao(6, 300.0, Some(1));
    var r2 := Liquidada("BGIK25", Compra, 4, 300.0, 310.0, 13200.0, 4, 5);
    var r3 := Liquidada("BGIK25", Compra, 6, 300.0, 290.0, -19800.0, 9, 10);
    assert ts[..2] == [t1, t2] && [t1, t2][..1] == [t1] && [t1][..0] == [];
    var e1 := Replay([t1]);
    assert e1 == Processar(Replay([]), t1);
    assert Replay([]) == Inicial;
    assert Atual(Inicial, t1.referencia) == Zerada;
    assert e1 == Estado(map["BGIK25" := p1], ["BGIK25"], []);
    var e2 := Replay([t1, t2]);
    assert e2 == Processar(e1, t2);
    assert Atual(e1, t2.referencia) == p1;
    assert e2 == Estado(map["BGIK25" := p2], ["BGIK25"], [r2]);
    var e3 := Replay(ts);
    assert e3 == Processar(e2, t3);
    assert Atual(e2, t3.referencia) == p2;
  }

  /** The metrics of the worked case's two records. */
  lemma ExemploMetricas()
    ensures var m := CalcularMetricas([Liquidada("BGIK25", Compra, 4, 300.0, 310.0, 13200.0, 4, 5),
                                       Liquidada("BGIK25", Compra, 6, 300.0, 290.0, -19800.0, 9, 10)]);
      && m.resultadoAcumulado == -6600.0 && m.taxaAcerto == 50.0
      && m.maiorGanho == 13200.0 && m.maiorPerda == -19800.0
  {
    var r2 := Liquidada("BGIK25", Compra, 4, 300.0, 310.0, 13200.0, 4, 5);
    var r3 := Liquidada("BGIK25", Compra, 6, 300.0, 290.0, -19800.0, 9, 10);
    var ls := [r2, r3];
    assert ls[..1] == [r2] && [r2][..0] == [];
    assert MaiorResultado(ls) == 13200.0;
    assert MenorResultado(ls) == -19800.0;
    assert ContaPositivas(ls) == 1;
    assert SomaResultados([r2]) == 13200.0;
    assert SomaResultados(ls) == 13200.0 + -19800.0 == -6600.0;
    var m := CalcularMetricas(ls);
    assert m.taxaAcerto == 1.0 / 2.0 * 100.0 == 50.0;
  }
}

=== FILE: motor.dfy ===
/** The position-accounting engine of `calcularPosicoes` (data_api.js):
    a per-reference state machine (flat, long, short) folded over the
    transactions in date order, emitting one liquidation record per partial
    or full close, and the open-position list built from the final balances. */
module Motor {
  import opened Basico
  import opened Transacoes

  /** Arrobas per contract: the hard-coded multiplier 330. */
  const ARROBAS: real := 330.0

  /** The running record `mapaReferencias[referencia]`: signed balance,
      weighted average price and entry date (`null` when flat). */
  datatype Posicao = Posicao(saldo: int, precoMedio: real, dataEntrada: Option<int>)

  /** A fresh reference: `{saldo: 0, precoMedio: 0, dataEntrada: null}`. */
  const Zerada: Posicao := Posicao(0, 0.0, None)

  /** An entry of `posicoesLiquidadas`; `tipo` is the side that was closed. */
  datatype Liquidada = Liquidada(
    referencia: string, tipo: Tipo, contratos: int, precoEntrada: real, precoSaida: real,
    resultado: real, diasInvestidos: int, dataLiquidacao: int)

  /** An entry of `posicoesAbertas`. */
  datatype Aberta = Aberta(
    referencia: string, tipo: Tipo, contratos: int, precoMedio: real, precoAtual: real,
    resultadoPotencial: real, diasEmAberto: int)

  /** The signed quantity of a transaction: + for Compra, - for Venda. */
  function Sinal(t: Transacao): int
  {
    if t.tipo == Compra then t.contratos else -t.contratos
  }

  /** The signed sum of a list of transactions. */
  function SomaAssinada(h: seq<Transacao>): int
  {
    if h == [] then 0 else SomaAssinada(h[..|h| - 1]) + Sinal(h[|h| - 1])
  }

  /** Every transaction has a positive size (the upstream validation). */
  ghost predicate Positivas(h: seq<Transacao>)
  {
    forall i :: 0 <= i < |h| ==> h[i].contratos > 0
  }

  /** The state shape the engine keeps when sizes are positive: a flat
      reference has average 0 and no entry date; an open one has a date. */
  ghost predicate Coerente(p: Posicao)
  {
    && (p.saldo == 0 ==> p.precoMedio == 0.0 && p.dataEntrada == None)
    && (p.saldo != 0 ==> p.dataEntrada.Some?)
  }

  // ---------------------------------------------------------------------
  // One transaction on one reference (data_api.js:227-352)
  // ---------------------------------------------------------------------

  /** The entry date once the engine has filled it in: a `null` date becomes
      the trade's date before the side is looked at. */
  function Entrada(p: Posicao, t: Transacao): int
  {
    if p.dataEntrada.None? then t.data else p.dataEntrada.value
  }

  /** `(valorAnterior + valorNovo) / novoSaldo`: the average price of `q1`
      contracts at `p1` together with `q2` contracts at `p2`. */
  function MediaPonderada(q1: int, p1: real, q2: int, p2: real): real
    requires q1 + q2 > 0
  {
    (q1 as real * p1 + q2 as real * p2) / (q1 + q2) as real
  }

  /** The result of `contratos` contracts of side `lado` held at average
      `precoMedio` and valued at `preco`: (price - average) * size * 330 for a
      long, the reverse for a short. Liquidations, open positions, price
      updates, simulations and the liquidation estimate all use it. */
  function Resultado(lado: Tipo, precoMedio: real, preco: real, contratos: int): real
  {
    if lado == Compra then (preco - precoMedio) * contratos as real * ARROBAS
    else (precoMedio - preco) * contratos as real * ARROBAS
  }

  /** The record of closing `liq` contracts of side `lado` held at average
      `precoMedio` since `entrada`, at the trade's price and date; the holding
      period is never negative. */
  function Registro(t: Transacao, lado: Tipo, liq: int, precoMedio: real, entrada: int): Liquidada
  {
    Liquidada(t.referencia, lado, liq, precoMedio, t.preco, Resultado(lado, precoMedio, t.preco, liq),
              Max(0, t.data - entrada), t.data)
  }

  /** The liquidation record one transaction pushes onto `posicoesLiquidadas`,
      if any: a Compra against a short or a Venda against a long, for
      `min(contratos, |saldo|)` contracts when that is positive. */
  function Liquidacao(p: Posicao, t: Transacao): Option<Liquidada>
  {
    var liq := Min(t.contratos, Abs(p.saldo));
    match t.tipo
    case Compra =>
      if p.saldo < 0 && liq > 0 then Some(Registro(t, Venda, liq, p.precoMedio, Entrada(p, t))) else None
    case Venda =>
      if p.saldo > 0 && liq > 0 then Some(Registro(t, Compra, liq, p.precoMedio, Entrada(p, t))) else None
  }

  /** The reference's record after one transaction. */
  function Apos(p: Posicao, t: Transacao): Posicao
  {
    var entrada := Entrada(p, t);
    match t.tipo
    case Compra =>
      if p.saldo < 0 then
        var liq := Min(t.contratos, Abs(p.saldo));
        if liq > 0 then
          var saldo := p.saldo + liq;
          if t.contratos > liq then Posicao(saldo + (t.contratos - liq), t.preco, Some(t.data))
          else if saldo == 0 then Zerada
          else Posicao(saldo, p.precoMedio, Some(entrada))
        else Posicao(p.saldo, p.precoMedio, Some(entrada))
      else
        var novoSaldo := p.saldo + t.contratos;
        var medio := if novoSaldo > 0 then MediaPonderada(p.saldo, p.precoMedio, t.contratos, t.preco)
                     else p.precoMedio;
        Posicao(novoSaldo, medio, Some(entrada))
    case Venda =>
      if p.saldo > 0 then
        var liq := Min(t.contratos, p.saldo);
        if liq > 0 then
          var saldo := p.saldo - liq;
          if t.contratos > liq then Posicao(saldo - (t.contratos - liq), t.preco, Some(t.data))
          else if saldo == 0 then Zerada
          else Posicao(saldo, p.precoMedio, Some(entrada))
        else Posicao(p.saldo, p.precoMedio, Some(entrada))
      else if p.saldo == 0 then
        Posicao(p.saldo - t.contratos, t.preco, Some(t.data))
      else
        var novoSaldo := Abs(p.saldo) + t.contratos;
        var medio := if novoSaldo > 0 then MediaPonderada(Abs(p.saldo), p.precoMedio, t.contratos, t.preco)
                     else p.precoMedio;
        Posicao(p.saldo - t.contratos, medio, Some(entrada))
  }

  /** The loop body of `calcularPosicoes` for one transaction, written as the
      source writes it: local copies of the record's fields updated in place. */
  method AplicarTransacao(posicao: Posicao, t: Transacao) returns (nova: Posicao, registro: Option<Liquidada>)
    ensures nova == Apos(posicao, t) && registro == Liquidacao(posicao, t)
  {
    var saldo, precoMedio, dataEntrada := posicao.saldo, posicao.precoMedio, posicao.dataEntrada;
    registro := None;
    if dataEntrada == None {
      dataEntrada := Some(t.data);
    }
    if t.tipo == Compra {
      if saldo < 0 {
        var contratosLiquidacao := Min(t.contratos, Abs(saldo));
        if contratosLiquidacao > 0 {
          registro := Some(Registro(t, Venda, contratosLiquidacao, precoMedio, dataEntrada.value));
          saldo := saldo + contratosLiquidacao;
          if t.contratos > contratosLiquidacao {
            var contratosRestantes := t.contratos - contratosLiquidacao;
            saldo := saldo + contratosRestantes;
            precoMedio := t.preco;
            dataEntrada := Some(t.data);
          } else if saldo == 0 {
            precoMedio := 0.0;
            dataEntrada := None;
          }
        }
      } else {
        var novoSaldo := saldo + t.contratos;
        if novoSaldo > 0 {
          precoMedio := MediaPonderada(saldo, precoMedio, t.contratos, t.preco);
        }
        saldo := saldo + t.contratos;
      }
    } else {
      if saldo > 0 {
        var contratosLiquidacao := Min(t.contratos, saldo);
        if contratosLiquidacao > 0 {
          registro := Some(Registro(t, Compra, contratosLiquidacao, precoMedio, dataEntrada.value));
          saldo := saldo - contratosLiquidacao;
          if t.contratos > contratosLiquidacao {
            var contratosRestantes := t.contratos - contratosLiquidacao;
            saldo := saldo - contratosRestantes;
            precoMedio := t.preco;
            dataEntrada := Some(t.data);
          } else if saldo == 0 {
            precoMedio := 0.0;
            dataEntrada := None;
          }
        }
      } else {
        if saldo == 0 {
          precoMedio := t.preco;
          dataEntrada := Some(t.data);
        } else {
          var novoSaldo := Abs(saldo) + t.contratos;
          if novoSaldo > 0 {
            precoMedio := MediaPonderada(Abs(saldo), precoMedio, t.contratos, t.preco);
          }
        }
        saldo := saldo - t.contratos;
      }
    }
    nova := Posicao(saldo, precoMedio, dataEntrada);
  }

  // ---------------------------------------------------------------------
  // Properties of one step
  // ---------------------------------------------------------------------

  /** Conservation for one step: with a positive size the balance moves by
      exactly the signed size, whichever branch is taken. */
  lemma PassoConserva(p: Posicao, t: Transacao)
    requires t.contratos > 0
    ensures Apos(p, t).saldo == p.saldo + Sinal(t)
  {
  }

  /** With a positive size, a coherent record stays coherent. */
  lemma PassoCoerente(p: Posicao, t: Transacao)
    requires t.contratos > 0 && Coerente(p)
    ensures Coerente(Apos(p, t))
  {
  }

  /** A trade against the open side emits exactly one record: its size is
      `min(tx.contratos, |saldo|)`, positive and at most the open size; its
      result is (exit - average) * size * 330 for a long and the reverse for
      a short; its `tipo` is the side being closed; its holding period is
      not negative and, for a coherent record, is the days since entry. */
  lemma PassoLiquida(p: Posicao, t: Transacao)
    requires t.contratos > 0
    requires (t.tipo == Compra && p.saldo < 0) || (t.tipo == Venda && p.saldo > 0)
    ensures Liquidacao(p, t).Some?
    ensures var r := Liquidacao(p, t).value;
      && r.referencia == t.referencia
      && r.contratos == Min(t.contratos, Abs(p.saldo))
      && 0 < r.contratos <= Abs(p.saldo)
      && r.tipo == (if p.saldo > 0 then Compra else Venda)
      && r.precoEntrada == p.precoMedio && r.precoSaida == t.preco
      && r.resultado == (if p.saldo > 0 then (t.preco - p.precoMedio) else (p.precoMedio - t.preco))
                        * r.contratos as real * ARROBAS
      && r.diasInvestidos >= 0
      && r.dataLiquidacao == t.data
      && (Coerente(p) ==> r.diasInvestidos == Max(0, t.data - p.dataEntrada.value))
  {
  }

  /** A trade smaller than the open opposite position reduces it and keeps
      its average price and entry date. */
  lemma PassoParcial(p: Posicao, t: Transacao)
    requires 0 < t.contratos < Abs(p.saldo)
    requires (t.tipo == Compra && p.saldo < 0) || (t.tipo == Venda && p.saldo > 0)
    ensures var q := Apos(p, t);
      && q.saldo == p.saldo + Sinal(t)
      && q.precoMedio == p.precoMedio
      && (p.dataEntrada.Some? ==> q.dataEntrada == p.dataEntrada)
  {
  }

  /** A trade exactly the size of the open opposite position closes it:
      balance 0, average 0, entry date null, and no phantom position. */
  lemma PassoZera(p: Posicao, t: Transacao)
    requires p.saldo != 0 && t.contratos == Abs(p.saldo)
    requires (t.tipo == Compra && p.saldo < 0) || (t.tipo == Venda && p.saldo > 0)
    ensures Apos(p, t) == Zerada
    ensures Liquidacao(p, t).Some? && Liquidacao(p, t).value.contratos == Abs(p.saldo)
  {
  }

  /** Reversal: a trade larger than the open opposite position emits one
      record for the whole prior size and opens the remainder on the trade's
      side at the trade's price and date. */
  lemma PassoInverte(p: Posicao, t: Transacao)
    requires p.saldo != 0 && t.contratos > Abs(p.saldo)
    requires (t.tipo == Compra && p.saldo < 0) || (t.tipo == Venda && p.saldo > 0)
    ensures Liquidacao(p, t).Some? && Liquidacao(p, t).value.contratos == Abs(p.saldo)
    ensures Apos(p, t) == Posicao(if t.tipo == Compra then t.contratos - Abs(p.saldo)
                                     else -(t.contratos - Abs(p.saldo)), t.preco, Some(t.data))
  {
  }

  /** A weighted average of two prices lies between them. */
  lemma {:induction false} MediaPonderadaEntre(q1: int, p1: real, q2: int, p2: real)
    requires q1 >= 0 && q2 > 0
    ensures MinReal(p1, p2) <= MediaPonderada(q1, p1, q2, p2) <= MaxReal(p1, p2)
    ensures q1 == 0 ==> MediaPonderada(q1, p1, q2, p2) == p2
  {
    var a, b := q1 as real, q2 as real;
    var m := MediaPonderada(q1, p1, q2, p2);
    assert m * (a + b) == a * p1 + b * p2;
    assert (m - p1) * (a + b) == b * (p2 - p1);
    assert (m - p2) * (a + b) == a * (p1 - p2);
    if p1 <= p2 {
      ProdutoNaoNegativo(b, p2 - p1);
      ProdutoNaoNegativo(a, p2 - p1);
      FatorNaoNegativo(m - p1, a + b);
      FatorNaoNegativo(p2 - m, a + b);
    } else {
      ProdutoNaoNegativo(b, p1 - p2);
      ProdutoNaoNegativo(a, p1 - p2);
      FatorNaoNegativo(p1 - m, a + b);
      FatorNaoNegativo(m - p2, a + b);
    }
  }

  lemma ProdutoNaoNegativo(x: real, y: real)
    requires x >= 0.0 && y >= 0.0
    ensures x * y >= 0.0
  {
  }

  lemma FatorNaoNegativo(x: real, y: real)
    requires y > 0.0 && x * y >= 0.0
    ensures x >= 0.0
  {
  }

  /** A trade on the open side (or from flat) emits nothing, grows the
      absolute balance by its size and sets the average to the
      quantity-weighted average of the old average and the trade price,
      which lies between the two; from flat the average is the trade price
      and, for a coherent record, the entry date is the trade's date. */
  lemma PassoAcumula(p: Posicao, t: Transacao)
    requires t.contratos > 0
    requires (t.tipo == Compra && p.saldo >= 0) || (t.tipo == Venda && p.saldo <= 0)
    ensures Liquidacao(p, t) == None
    ensures var q := Apos(p, t);
      && q.saldo == p.saldo + Sinal(t)
      && Abs(q.saldo) == Abs(p.saldo) + t.contratos
      && q.precoMedio == MediaPonderada(Abs(p.saldo), p.precoMedio, t.contratos, t.preco)
      && MinReal(p.precoMedio, t.preco) <= q.precoMedio <= MaxReal(p.precoMedio, t.preco)
      && (p.saldo == 0 ==> q.precoMedio == t.preco)
      && (Coerente(p) && p.saldo == 0 ==> q.dataEntrada == Some(t.data))
      && (p.saldo != 0 && p.dataEntrada.Some? ==> q.dataEntrada == p.dataEntrada)
  {
    MediaPonderadaEntre(Abs(p.saldo), p.precoMedio, t.contratos, t.preco);
  }
}

=== FILE: posicoes.dfy ===
/** The whole replay of `calcularPosicoes` (data_api.js): the map of
    per-reference records folded over the sorted transactions, the list of
    liquidation records it emits, and the open-position list built from the
    final balances. */
module Posicoes {
  import opened Basico
  import opened Transacoes
  import opened Motor

  /** What the replay has built so far: `mapaReferencias`, the order in which
      its keys were first seen (the order `Object.entries` walks them) and
      `posicoesLiquidadas`. */
  datatype Estado = Estado(mapa: map<string, Posicao>, ordem: seq<string>, liquidadas: seq<Liquidada>)

  const Inicial: Estado := Estado(map[], [], [])

  /** An optional record as a list of zero or one records. */
  function Lista(o: Option<Liquidada>): (l: seq<Liquidada>)
    ensures |l| <= 1
    ensures o.None? <==> l == []
    ensures o.Some? ==> l == [o.value]
  {
    match o
    case None => []
    case Some(r) => [r]
  }

  /** The record a reference has before its transaction is applied: a new
      reference starts flat. */
  function Atual(e: Estado, r: string): Posicao
  {
    if r in e.mapa then e.mapa[r] else Zerada
  }

  /** One iteration of the `forEach`: create the reference if it is new,
      apply the transaction to its record and push the liquidation, if any. */
  function Processar(e: Estado, t: Transacao): Estado
  {
    var p := Atual(e, t.referencia);
    var ordem := if t.referencia in e.mapa then e.ordem else e.ordem + [t.referencia];
    Estado(e.mapa[t.referencia := Apos(p, t)], ordem, e.liquidadas + Lista(Liquidacao(p, t)))
  }

  /** The replay of a list of transactions in list order. */
  function Replay(ts: seq<Transacao>): Estado
  {
    if ts == [] then Inicial else Processar(Replay(ts[..|ts| - 1]), ts[|ts| - 1])
  }

  /** One more transaction of the list is one more step of the replay. */
  lemma ReplayPasso(ts: seq<Transacao>, i: nat)
    requires i < |ts|
    ensures Replay(ts[..i + 1]) == Processar(Replay(ts[..i]), ts[i])
  {
    assert ts[..i + 1][..i] == ts[..i];
  }

  /** The keys of the map are exactly the references listed in `ordem`, each
      listed once. */
  ghost predicate BemFormado(e: Estado)
  {
    && (forall r :: r in e.mapa <==> r in e.ordem)
    && (forall i, j :: 0 <= i < j < |e.ordem| ==> e.ordem[i] != e.ordem[j])
  }

  /** The transactions of reference `r`, in list order
      (`posicao.transacoes` in the source). */
  function Historico(ts: seq<Transacao>, r: string): (h: seq<Transacao>)
    ensures |h| <= |ts|
    ensures forall i :: 0 <= i < |h| ==> h[i].referencia == r
  {
    if ts == [] then []
    else Historico(ts[..|ts| - 1], r) + (if ts[|ts| - 1].referencia == r then [ts[|ts| - 1]] else [])
  }

  /** A reference's history holds every one of its transactions, each as
      often as it occurs in the whole list, and nothing else. */
  lemma {:induction false} HistoricoCompleto(ts: seq<Transacao>, r: string)
    ensures forall t :: t in Historico(ts, r) <==> t in ts && t.referencia == r
    ensures forall t :: multiset(Historico(ts, r))[t] == if t.referencia == r then multiset(ts)[t] else 0
  {
    if ts != [] {
      HistoricoCompleto(ts[..|ts| - 1], r);
      assert ts == ts[..|ts| - 1] + [ts[|ts| - 1]];
    }
  }

  /** One reference's record after its own transactions, from flat. */
  function Evoluir(h: seq<Transacao>): Posicao
  {
    if h == [] then Zerada else Apos(Evoluir(h[..|h| - 1]), h[|h| - 1])
  }

  // ---------------------------------------------------------------------
  // Properties of the replay
  // ---------------------------------------------------------------------

  /** The replay keeps the map and its key order in step, and records one
      liquidation at most per transaction. */
  lemma {:induction false} ReplayBemFormado(ts: seq<Transacao>)
    ensures BemFormado(Replay(ts))
    ensures |Replay(ts).liquidadas| <= |ts|
  {
    if ts != [] {
      ReplayBemFormado(ts[..|ts| - 1]);
    }
  }

  /** References do not interact: a reference is in the map exactly when it
      has transactions, and its record is what its own transactions alone
      produce from flat. */
  lemma {:induction false} ReplayPorReferencia(ts: seq<Transacao>, r: string)
    ensures r in Replay(ts).mapa <==> Historico(ts, r) != []
    ensures r in Replay(ts).mapa ==> Replay(ts).mapa[r] == Evoluir(Historico(ts, r))
  {
    if ts != [] {
      var init, last := ts[..|ts| - 1], ts[|ts| - 1];
      ReplayPorReferencia(init, r);
      if last.referencia == r {
        var h0 := Historico(init, r);
        assert Historico(ts, r) == h0 + [last];
        assert (h0 + [last])[..|h0 + [last]| - 1] == h0;
        assert Atual(Replay(init), r) == Evoluir(h0);
        assert Replay(ts).mapa[r] == Apos(Evoluir(h0), last);
      } else {
        assert Historico(ts, r) == Historico(init, r);
      }
    }
  }

  /** Conservation for one reference: with positive sizes the balance is the
      signed sum of its transactions, and the record keeps its shape (flat
      means average 0 and no entry date). */
  lemma {:induction false} EvoluirConserva(h: seq<Transacao>)
    requires Positivas(h)
    ensures Evoluir(h).saldo == SomaAssinada(h)
    ensures Coerente(Evoluir(h))
  {
    if h != [] {
      var init := h[..|h| - 1];
      assert Positivas(init);
      EvoluirConserva(init);
      PassoConserva(Evoluir(init), h[|h| - 1]);
      PassoCoerente(Evoluir(init), h[|h| - 1]);
    }
  }

  /** Conservation after every prefix of the replay: each reference's
      `saldo` equals its bought contracts minus its sold contracts so far. */
  lemma Conservacao(ts: seq<Transacao>, n: nat, r: string)
    requires Positivas(ts) && n <= |ts|
    requires r in Replay(ts[..n]).mapa
    ensures Replay(ts[..n]).mapa[r].saldo == SomaAssinada(Historico(ts[..n], r))
    ensures Coerente(Replay(ts[..n]).mapa[r])
  {
    ReplayPorReferencia(ts[..n], r);
    HistoricoPositivas(ts[..n], r);
    EvoluirConserva(Historico(ts[..n], r));
  }

  lemma {:induction false} HistoricoPositivas(ts: seq<Transacao>, r: string)
    requires Positivas(ts)
    ensures Positivas(Historico(ts, r))
  {
    if ts != [] {
      assert Positivas(ts[..|ts| - 1]);
      HistoricoPositivas(ts[..|ts| - 1], r);
    }
  }

  /** Every record the replay emits for positive sizes closes a positive
      number of contracts and has a nonnegative holding period. */
  lemma {:induction false} ReplayRegistros(ts: seq<Transacao>)
    requires Positivas(ts)
    ensures forall i :: 0 <= i < |Replay(ts).liquidadas| ==>
      Replay(ts).liquidadas[i].contratos > 0 && Replay(ts).liquidadas[i].diasInvestidos >= 0
  {
    if ts != [] {
      var init, t := ts[..|ts| - 1], ts[|ts| - 1];
      assert Positivas(init);
      ReplayRegistros(init);
      var e := Replay(init);
      var p := Atual(e, t.referencia);
      if Liquidacao(p, t).Some? {
        PassoLiquida(p, t);
      }
    }
  }

  // ---------------------------------------------------------------------
  // Open positions (data_api.js:356-391)
  // ---------------------------------------------------------------------

  /** `precos[referencia] || 0`: the stored price, or 0 when there is none. */
  function PrecoAtual(precos: map<string, real>, r: string): (v: real)
    ensures r in precos ==> v == precos[r]
    ensures r !in precos ==> v == 0.0
  {
    if r in precos then precos[r] else 0.0
  }

  /** The open position of a reference with a nonzero balance, valued at
      `precoAtual` on day `hoje`. */
  function AbertaDe(r: string, p: Posicao, precoAtual: real, hoje: int): (a: Aberta)
    requires p.saldo != 0
    ensures a.referencia == r && a.precoMedio == p.precoMedio && a.precoAtual == precoAtual
    ensures a.tipo == Compra <==> p.saldo > 0
    ensures a.contratos == Abs(p.saldo) > 0
    ensures precoAtual <= 0.0 ==> a.resultadoPotencial == 0.0
    ensures precoAtual > 0.0 ==> a.resultadoPotencial == Resultado(a.tipo, p.precoMedio, precoAtual, a.contratos)
    ensures a.diasEmAberto >= 0
  {
    var tipo := if p.saldo > 0 then Compra else Venda;
    var contratos := Abs(p.saldo);
    var dias := match p.dataEntrada
      case Some(d) => Max(0, hoje - d)
      case None => 0;
    Aberta(r, tipo, contratos, p.precoMedio, precoAtual,
           if precoAtual > 0.0 then Resultado(tipo, p.precoMedio, precoAtual, contratos) else 0.0,
           dias)
  }

  /** The open-position list: one entry per reference with a nonzero balance,
      walking the references in `ordem`. */
  function AbertasDe(mapa: map<string, Posicao>, ordem: seq<string>, precos: map<string, real>, hoje: int): seq<Aberta>
  {
    if ordem == [] then []
    else
      var r := ordem[|ordem| - 1];
      AbertasDe(mapa, ordem[..|ordem| - 1], precos, hoje)
      + (if r in mapa && mapa[r].saldo != 0 then [AbertaDe(r, mapa[r], PrecoAtual(precos, r), hoje)] else [])
  }

  /** Every open position belongs to a listed reference with a nonzero
      balance and is that reference's `AbertaDe`; every listed reference with
      a nonzero balance has one; a reference listed once has at most one. */
  lemma AbertasDeCaracteriza(mapa: map<string, Posicao>, ordem: seq<string>, precos: map<string, real>, hoje: int)
    requires forall i, j :: 0 <= i < j < |ordem| ==> ordem[i] != ordem[j]
    ensures var l := AbertasDe(mapa, ordem, precos, hoje);
      && |l| <= |ordem|
      && (forall i :: 0 <= i < |l| ==>
            && l[i].referencia in ordem && l[i].referencia in mapa && mapa[l[i].referencia].saldo != 0
            && l[i] == AbertaDe(l[i].referencia, mapa[l[i].referencia], PrecoAtual(precos, l[i].referencia), hoje))
      && (forall r :: r in ordem && r in mapa && mapa[r].saldo != 0 ==> exists i :: 0 <= i < |l| && l[i].referencia == r)
      && (forall i, j :: 0 <= i < j < |l| ==> l[i].referencia != l[j].referencia)
  {
    AbertasDeElementos(mapa, ordem, precos, hoje);
    forall r | r in ordem && r in mapa && mapa[r].saldo != 0
      ensures exists i :: 0 <= i < |AbertasDe(mapa, ordem, precos, hoje)| && AbertasDe(mapa, ordem, precos, hoje)[i].referencia == r
    {
      AbertaPresente(mapa, ordem, precos, hoje, r);
    }
    AbertasDeDistintas(mapa, ordem, precos, hoje);
  }

  /** Every open position comes from a listed reference with a nonzero
      balance and is that reference's `AbertaDe`. */
  lemma {:induction false} AbertasDeElementos(mapa: map<string, Posicao>, ordem: seq<string>, precos: map<string, real>, hoje: int)
    ensures var l := AbertasDe(mapa, ordem, precos, hoje);
      && |l| <= |ordem|
      && (forall i :: 0 <= i < |l| ==>
            && l[i].referencia in ordem && l[i].referencia in mapa && mapa[l[i].referencia].saldo != 0
            && l[i] == AbertaDe(l[i].referencia, mapa[l[i].referencia], PrecoAtual(precos, l[i].referencia), hoje))
  {
    if ordem != [] {
      var init, r := ordem[..|ordem| - 1], ordem[|ordem| - 1];
      AbertasDeElementos(mapa, init, precos, hoje);
      var l0 := AbertasDe(mapa, init, precos, hoje);
      var l := AbertasDe(mapa, ordem, precos, hoje);
      assert ordem == init + [r];
      forall i | 0 <= i < |l|
        ensures l[i].referencia in ordem
      {
        if i < |l0| {
          assert l[i] == l0[i];
        }
      }
    }
  }

  /** A listed reference with a nonzero balance has an open position. */
  lemma {:induction false} AbertaPresente(mapa: map<string, Posicao>, ordem: seq<string>, precos: map<string, real>, hoje: int,
                                         r: string)
    requires r in ordem && r in mapa && mapa[r].saldo != 0
    ensures exists i :: 0 <= i < |AbertasDe(mapa, ordem, precos, hoje)| && AbertasDe(mapa, ordem, precos, hoje)[i].referencia == r
  {
    var init, ultima := ordem[..|ordem| - 1], ordem[|ordem| - 1];
    var l0 := AbertasDe(mapa, init, precos, hoje);
    var l := AbertasDe(mapa, ordem, precos, hoje);
    assert ordem == init + [ultima];
    if r != ultima {
      assert r in init;
      AbertaPresente(mapa, init, precos, hoje, r);
      var i :| 0 <= i < |l0| && l0[i].referencia == r;
      assert l[i] == l0[i];
    } else {
      assert l[|l| - 1].referencia == r;
    }
  }

  /** A reference listed once has at most one open position. */
  lemma {:induction false} AbertasDeDistintas(mapa: map<string, Posicao>, ordem: seq<string>, precos: map<string, real>, hoje: int)
    requires forall i, j :: 0 <= i < j < |ordem| ==> ordem[i] != ordem[j]
    ensures var l := AbertasDe(mapa, ordem, precos, hoje);
      forall i, j :: 0 <= i < j < |l| ==> l[i].referencia != l[j].referencia
  {
    if ordem != [] {
      var init, r := ordem[..|ordem| - 1], ordem[|ordem| - 1];
      AbertasDeDistintas(mapa, init, precos, hoje);
      AbertasDeElementos(mapa, init, precos, hoje);
      var l0 := AbertasDe(mapa, init, precos, hoje);
      var l := AbertasDe(mapa, ordem, precos, hoje);
      assert ordem == init + [r];
      assert r !in init;
      forall i, j | 0 <= i < j < |l|
        ensures l[i].referencia != l[j].referencia
      {
        if j < |l0| {
          assert l[i] == l0[i] && l[j] == l0[j];
        } else {
          assert l[i] == l0[i] && l0[i].referencia in init;
        }
      }
    }
  }

  /** What the open-position list says about one reference whose balance
      (0 when absent) is `net`. */
  lemma AbertaDaReferencia(mapa: map<string, Posicao>, ordem: seq<string>, precos: map<string, real>, hoje: int,
                           r: string, net: int)
    requires forall i, j :: 0 <= i < j < |ordem| ==> ordem[i] != ordem[j]
    requires r in mapa <==> r in ordem
    requires net == if r in mapa then mapa[r].saldo else 0
    ensures var l := AbertasDe(mapa, ordem, precos, hoje);
      && ((exists i :: 0 <= i < |l| && l[i].referencia == r) <==> net != 0)
      && (forall i :: 0 <= i < |l| && l[i].referencia == r ==>
            && (l[i].tipo == Compra <==> net > 0)
            && l[i].contratos == Abs(net)
            && l[i].precoAtual == PrecoAtual(precos, r))
  {
    AbertasDeCaracteriza(mapa, ordem, precos, hoje);
  }

  /** The open positions after a replay, in terms of each reference's own
      transactions: a reference has an open position exactly when its bought
      and sold contracts do not cancel out; the position is a Compra exactly
      when more were bought, and its size is the absolute net. In particular a
      reference closed exactly leaves no phantom position. */
  lemma AbertasDoReplay(ts: seq<Transacao>, precos: map<string, real>, hoje: int, r: string)
    requires Positivas(ts)
    ensures var e := Replay(ts);
      var l := AbertasDe(e.mapa, e.ordem, precos, hoje);
      var net := SomaAssinada(Historico(ts, r));
      && ((exists i :: 0 <= i < |l| && l[i].referencia == r) <==> net != 0)
      && (forall i :: 0 <= i < |l| && l[i].referencia == r ==>
            && (l[i].tipo == Compra <==> net > 0)
            && l[i].contratos == Abs(net)
            && l[i].precoAtual == PrecoAtual(precos, r))
  {
    var e := Replay(ts);
    ReplayBemFormado(ts);
    SaldoFinal(ts, r);
    AbertaDaReferencia(e.mapa, e.ordem, precos, hoje, r, SomaAssinada(Historico(ts, r)));
  }

  /** The final balance of a reference (0 when it never traded) is the
      signed sum of its transactions. */
  lemma SaldoFinal(ts: seq<Transacao>, r: string)
    requires Positivas(ts)
    ensures r in Replay(ts).mapa <==> r in Replay(ts).ordem
    ensures (if r in Replay(ts).mapa then Replay(ts).mapa[r].saldo else 0) == SomaAssinada(Historico(ts, r))
  {
    ReplayBemFormado(ts);
    ReplayPorReferencia(ts, r);
    HistoricoPositivas(ts, r);
    EvoluirConserva(Historico(ts, r));
  }
}

=== FILE: textos.dfy ===
/** The JavaScript string operations the user-interface code relies on:
    `split` on a one-character separator and its inverse `join`, `trim`,
    `toLowerCase`, `includes`, and `String(n).padStart(2, '0')`. */
module Textos {

  /** `s.split(c)`: the pieces between occurrences of `c`; always at least
      one piece, and `""` gives `[""]`. */
  function Dividir(s: string, c: char): (partes: seq<string>)
    ensures |partes| >= 1
    ensures forall i :: 0 <= i < |partes| ==> c !in partes[i]
  {
    if s == [] then [[]]
    else if s[0] == c then [[]] + Dividir(s[1..], c)
    else
      var resto := Dividir(s[1..], c);
      [[s[0]] + resto[0]] + resto[1..]
  }

  /** The number of occurrences of `c` in `s`. */
  function Ocorrencias(s: string, c: char): nat
  {
    if s == [] then 0 else (if s[0] == c then 1 else 0) + Ocorrencias(s[1..], c)
  }

  /** `split` yields one more piece than there are separators. */
  lemma {:induction false} DividirTamanho(s: string, c: char)
    ensures |Dividir(s, c)| == Ocorrencias(s, c) + 1
  {
    if s != [] {
      DividirTamanho(s[1..], c);
    }
  }

  /** `partes.join(c)`. */
  function Juntar(partes: seq<string>, c: char): string
    requires |partes| >= 1
  {
    if |partes| == 1 then partes[0] else partes[0] + [c] + Juntar(partes[1..], c)
  }

  /** Joining the pieces gives back the original text. */
  lemma {:induction false} JuntarDividir(s: string, c: char)
    ensures Juntar(Dividir(s, c), c) == s
  {
    if s != [] {
      JuntarDividir(s[1..], c);
      var resto := Dividir(s[1..], c);
      if s[0] != c {
        if |resto| == 1 {
          assert Juntar(Dividir(s, c), c) == [s[0]] + resto[0];
        } else {
          assert Dividir(s, c)[1..] == resto[1..];
          assert Juntar(Dividir(s, c), c) == [s[0]] + resto[0] + [c] + Juntar(resto[1..], c);
        }
        assert s == [s[0]] + s[1..];
      }
    }
  }

  /** Splitting a text made of a piece free of `c`, then `c`, then more,
      yields that piece followed by the pieces of the rest. */
  lemma {:induction false} DividirPrefixo(a: string, c: char, b: string)
    requires c !in a
    ensures Dividir(a + [c] + b, c) == [a] + Dividir(b, c)
  {
    if a == [] {
      assert a + [c] + b == [c] + b;
      assert ([c] + b)[1..] == b;
    } else {
      assert (a + [c] + b)[1..] == a[1..] + [c] + b;
      DividirPrefixo(a[1..], c, b);
      assert [a[0]] + a[1..] == a;
    }
  }

  /** Splitting a join of `c`-free pieces gives the pieces back. */
  lemma {:induction false} DividirJuntar(partes: seq<string>, c: char)
    requires |partes| >= 1
    requires forall i :: 0 <= i < |partes| ==> c !in partes[i]
    ensures Dividir(Juntar(partes, c), c) == partes
  {
    if |partes| == 1 {
      SemSeparador(partes[0], c);
    } else {
      DividirJuntar(partes[1..], c);
      DividirPrefixo(partes[0], c, Juntar(partes[1..], c));
      assert [partes[0]] + partes[1..] == partes;
    }
  }

  /** A text without `c` is a single piece. */
  lemma {:induction false} SemSeparador(s: string, c: char)
    requires c !in s
    ensures Dividir(s, c) == [s]
  {
    if s != [] {
      SemSeparador(s[1..], c);
      assert [s[0]] + s[1..] == s;
    }
  }

  /** The characters `String.prototype.trim` removes (the ASCII and Latin-1
      white space and line terminators, the byte-order mark and the Unicode
      space separators). */
  predicate Branco(ch: char)
  {
    || ch in {'\U{0009}', '\U{000A}', '\U{000B}', '\U{000C}', '\U{000D}', '\U{0020}', '\U{00A0}', '\U{1680}',
              '\U{2028}', '\U{2029}', '\U{202F}', '\U{205F}', '\U{3000}', '\U{FEFF}'}
    || '\U{2000}' <= ch <= '\U{200A}'
  }

  /** The number of leading white-space characters of `s`. */
  function Inicio(s: string): (i: nat)
    ensures i <= |s|
    ensures forall k :: 0 <= k < i ==> Branco(s[k])
    ensures i < |s| ==> !Branco(s[i])
  {
    if s == [] || !Branco(s[0]) then 0 else 1 + Inicio(s[1..])
  }

  /** The end of `s` once trailing white space from position `i` on is cut. */
  function Fim(s: string, i: nat): (j: nat)
    requires i <= |s|
    ensures i <= j <= |s|
    ensures forall k :: j <= k < |s| ==> Branco(s[k])
    ensures j > i ==> !Branco(s[j - 1])
    decreases |s|
  {
    if |s| == i || !Branco(s[|s| - 1]) then |s| else Fim(s[..|s| - 1], i)
  }

  /** `s.trim()`: `s` with its leading and trailing white space cut and
      nothing else changed. */
  function Aparar(s: string): (r: string)
    ensures |r| <= |s|
    ensures r == [] || (!Branco(r[0]) && !Branco(r[|r| - 1]))
  {
    s[Inicio(s)..Fim(s, Inicio(s))]
  }

  /** `trim` cuts only white space, and only at the ends: the result is the
      stretch of `s` after its leading white space, and all that follows it
      is white space. */
  lemma ApararRecorta(s: string)
    ensures Inicio(s) + |Aparar(s)| <= |s| && Aparar(s) == s[Inicio(s)..Inicio(s) + |Aparar(s)|]
    ensures forall k :: 0 <= k < Inicio(s) ==> Branco(s[k])
    ensures forall k :: Inicio(s) + |Aparar(s)| <= k < |s| ==> Branco(s[k])
  {
  }

  /** `toLowerCase` on one character (ASCII letters only). */
  function MinusculaLetra(ch: char): char
  {
    if 'A' <= ch <= 'Z' then (ch as int - 'A' as int + 'a' as int) as char else ch
  }

  /** `s.toLowerCase()` on ASCII text. */
  function Minusculas(s: string): (r: string)
    ensures |r| == |s|
    ensures forall i :: 0 <= i < |s| ==> r[i] == MinusculaLetra(s[i])
  {
    seq(|s|, k requires 0 <= k < |s| => MinusculaLetra(s[k]))
  }

  /** `p` occurs in `s` at position `i`. */
  predicate OcorreEm(s: string, p: string, i: int)
  {
    0 <= i <= |s| - |p| && forall m :: 0 <= m < |p| ==> s[i + m] == p[m]
  }

  /** `s.includes(p)`: `p` occurs in `s` at some position. */
  predicate Contem(s: string, p: string)
  {
    exists i | 0 <= i <= |s| - |p| :: OcorreEm(s, p, i)
  }

  /** Trimming does not change whether a word that neither starts nor ends
      with white space occurs in the lower-cased text. */
  lemma ApararContem(s: string, p: string)
    requires |p| > 0 && !Branco(p[0]) && !Branco(p[|p| - 1])
    ensures Contem(Minusculas(Aparar(s)), p) <==> Contem(Minusculas(s), p)
  {
    if Contem(Minusculas(Aparar(s)), p) {
      var k :| 0 <= k <= |Aparar(s)| - |p| && OcorreEm(Minusculas(Aparar(s)), p, k);
      ContemNoRecorte(s, p, k);
    }
    if Contem(Minusculas(s), p) {
      var k :| 0 <= k <= |s| - |p| && OcorreEm(Minusculas(s), p, k);
      ContemNoTexto(s, p, k);
    }
  }

  lemma ContemNoRecorte(s: string, p: string, k: int)
    requires OcorreEm(Minusculas(Aparar(s)), p, k)
    ensures OcorreEm(Minusculas(s), p, Inicio(s) + k)
  {
    var i := Inicio(s);
    var j := Fim(s, i);
    assert Aparar(s) == s[i..j];
    Alargar(s, i, j, p, k);
  }

  /** An occurrence in the slice `s[i..j]` is an occurrence in `s`. */
  lemma Alargar(s: string, i: nat, j: nat, p: string, k: int)
    requires i <= j <= |s|
    requires OcorreEm(Minusculas(s[i..j]), p, k)
    ensures OcorreEm(Minusculas(s), p, i + k)
  {
    var r := s[i..j];
    var t, u := Minusculas(s), Minusculas(r);
    forall m | 0 <= m < |p|
      ensures t[i + k + m] == p[m]
    {
      assert p[m] == u[k + m];
      assert r[k + m] == s[i + k + m];
    }
  }

  lemma ContemNoTexto(s: string, p: string, k: int)
    requires |p| > 0 && !Branco(p[0]) && !Branco(p[|p| - 1])
    requires OcorreEm(Minusculas(s), p, k)
    ensures Inicio(s) <= k && OcorreEm(Minusculas(Aparar(s)), p, k - Inicio(s))
  {
    ExtremosNaoBrancos(s, p, k);
    Nucleo(s, k, |p|);
    NoRecorte(s, p, k);
  }

  /** An occurrence within the trim bounds is an occurrence in the trimmed
      text. */
  lemma NoRecorte(s: string, p: string, k: int)
    requires Inicio(s) <= k && k + |p| <= Fim(s, Inicio(s))
    requires OcorreEm(Minusculas(s), p, k)
    ensures OcorreEm(Minusculas(Aparar(s)), p, k - Inicio(s))
  {
    Deslocar(s, Inicio(s), Fim(s, Inicio(s)), p, k);
  }

  /** An occurrence inside `s[i..j]` is an occurrence in that slice. */
  lemma Deslocar(s: string, i: nat, j: nat, p: string, k: int)
    requires i <= k && k + |p| <= j <= |s|
    requires OcorreEm(Minusculas(s), p, k)
    ensures OcorreEm(Minusculas(s[i..j]), p, k - i)
  {
    var r := s[i..j];
    var a := k - i;
    forall m | 0 <= m < |p|
      ensures Minusculas(r)[a + m] == p[m]
    {
      assert p[m] == Minusculas(s)[k + m];
      assert r[a + m] == s[k + m];
    }
  }

  /** An occurrence of a word that neither starts nor ends with white space
      sits on characters that are not white space at either end. */
  lemma ExtremosNaoBrancos(s: string, p: string, k: int)
    requires |p| > 0 && !Branco(p[0]) && !Branco(p[|p| - 1])
    requires OcorreEm(Minusculas(s), p, k)
    ensures !Branco(s[k]) && !Branco(s[k + |p| - 1])
  {
    var t := Minusculas(s);
    assert t[k + 0] == p[0];
    assert t[k + (|p| - 1)] == p[|p| - 1];
    BrancoNaoMuda(s[k]);
    BrancoNaoMuda(s[k + |p| - 1]);
  }

  /** A stretch of `s` that starts and ends outside white space survives
      trimming. */
  lemma Nucleo(s: string, k: nat, n: nat)
    requires 0 < n && k + n <= |s|
    requires !Branco(s[k]) && !Branco(s[k + n - 1])
    ensures Inicio(s) <= k && k + n <= Fim(s, Inicio(s))
  {
  }

  /** Lower-casing leaves white space as it is. */
  lemma BrancoNaoMuda(ch: char)
    ensures Branco(ch) ==> MinusculaLetra(ch) == ch
  {
  }

  /** A decimal digit. */
  predicate Digito(ch: char)
  {
    '0' <= ch <= '9'
  }

  /** The number a string of decimal digits spells, most significant first. */
  function Valor(d: string): nat
    requires forall k :: 0 <= k < |d| ==> Digito(d[k])
  {
    if d == [] then 0
    else
      assert Digito(d[|d| - 1]);
      Valor(d[..|d| - 1]) * 10 + (d[|d| - 1] as int - '0' as int)
  }

  /** A leading zero does not change the value. */
  lemma {:induction false} ZeroAEsquerda(d: string)
    requires forall k :: 0 <= k < |d| ==> Digito(d[k])
    ensures Valor("0" + d) == Valor(d)
  {
    if d != [] {
      assert ("0" + d)[..|"0" + d| - 1] == "0" + d[..|d| - 1];
      ZeroAEsquerda(d[..|d| - 1]);
    }
  }

  /** `String(n)` for a natural number: decimal digits that spell `n`, with
      no leading zero. */
  function Decimal(n: nat): (r: string)
    ensures |r| >= 1
    ensures n < 10 ==> |r| == 1
    ensures 10 <= n < 100 ==> |r| == 2
    ensures n >= 10 ==> |r| >= 2 && r[0] != '0'
    ensures forall k :: 0 <= k < |r| ==> Digito(r[k])
    ensures Valor(r) == n
  {
    if n < 10 then ['0' + n as char]
    else
      var d := Decimal(n / 10);
      var r := d + ['0' + (n % 10) as char];
      assert r[..|r| - 1] == d;
      r
  }

  /** `String(n).padStart(2, '0')`: at least two digits, exactly two below
      100, spelling `n`. */
  function Pad2(n: nat): (r: string)
    ensures |r| >= 2
    ensures n < 100 ==> |r| == 2
    ensures forall k :: 0 <= k < |r| ==> Digito(r[k])
    ensures Valor(r) == n
  {
    if n < 10 then
      ZeroAEsquerda(Decimal(n));
      "0" + Decimal(n)
    else Decimal(n)
  }
}

=== FILE: transacoes.dfy ===
/** Transactions and the chronological order the engine replays them in
    (`adicionarTransacao` and the sort at the start of `calcularPosicoes`
    in data_api.js). */
module Transacoes {

  /** The `tipo` of a transaction. */
  datatype Tipo = Compra | Venda

  /** The side that offsets `t`: a liquidation of a long is a sale. */
  function Oposto(t: Tipo): (o: Tipo)
    ensures o != t
    ensures t == Compra <==> o == Venda
  {
    if t == Compra then Venda else Compra
  }

  /** A recorded trade. `data` is a day number; `contratos` is whatever
      `parseInt` produced, so it is not assumed positive here. */
  datatype Transacao = Transacao(data: int, referencia: string, tipo: Tipo, contratos: int, preco: real)

  /** Non-decreasing by date. */
  ghost predicate Ordenada(s: seq<Transacao>)
  {
    forall i, j :: 0 <= i < j < |s| ==> s[i].data <= s[j].data
  }

  /** The index `adicionarTransacao`'s scan stops at: the first element whose
      date is later than `d`, or the end of the list. */
  function PontoInsercao(s: seq<Transacao>, d: int): (k: nat)
    ensures k <= |s|
    ensures forall i :: 0 <= i < k ==> s[i].data <= d
    ensures k < |s| ==> s[k].data > d
  {
    if s == [] || s[0].data > d then 0 else 1 + PontoInsercao(s[1..], d)
  }

  /** The scan's stopping point is determined by its two properties. */
  lemma PontoInsercaoUnico(s: seq<Transacao>, d: int, k: nat)
    requires k <= |s|
    requires forall i :: 0 <= i < k ==> s[i].data <= d
    requires k < |s| ==> s[k].data > d
    ensures k == PontoInsercao(s, d)
  {
  }

  /** `transacoes.splice(indiceInsercao, 0, novaTransacao)` at the scan's index. */
  function Inserir(s: seq<Transacao>, t: Transacao): seq<Transacao>
  {
    var k := PontoInsercao(s, t.data);
    s[..k] + [t] + s[k..]
  }

  /** The list sorted by date, stably: each element, in list order, is
      inserted after every earlier one whose date is not later than its own.
      This is what `transacoes.sort` with a date-difference comparator yields
      (the sort of ECMAScript 2019 and later is stable). */
  function Ordenar(s: seq<Transacao>): (r: seq<Transacao>)
    ensures |r| == |s|
  {
    if s == [] then [] else Inserir(Ordenar(s[..|s| - 1]), s[|s| - 1])
  }

  /** The transactions of day `d`, in list order. */
  function DoDia(s: seq<Transacao>, d: int): seq<Transacao>
  {
    if s == [] then []
    else DoDia(s[..|s| - 1], d) + (if s[|s| - 1].data == d then [s[|s| - 1]] else [])
  }

  /** Insertion grows the list by one and keeps exactly the old elements plus the new one. */
  lemma InserirConteudo(s: seq<Transacao>, t: Transacao)
    ensures |Inserir(s, t)| == |s| + 1
    ensures multiset(Inserir(s, t)) == multiset(s) + multiset{t}
  {
    var k := PontoInsercao(s, t.data);
    assert s == s[..k] + s[k..];
  }

  /** A transaction dated no earlier than every element goes at the end. */
  lemma InserirNoFim(s: seq<Transacao>, t: Transacao)
    requires forall i :: 0 <= i < |s| ==> s[i].data <= t.data
    ensures Inserir(s, t) == s + [t]
  {
    var k := PontoInsercao(s, t.data);
    assert k == |s|;
    assert s[..k] == s && s[k..] == [];
  }

  /** Where the new transaction lands: after every element whose date is not
      later than its own (in a sorted list, exactly the elements before the
      insertion point), with the old elements on either side unchanged. */
  lemma InserirPosicao(s: seq<Transacao>, t: Transacao)
    requires Ordenada(s)
    ensures var k := PontoInsercao(s, t.data);
      && Inserir(s, t)[k] == t
      && Inserir(s, t)[..k] == s[..k]
      && Inserir(s, t)[k + 1..] == s[k..]
      && (forall i :: 0 <= i < |s| ==> (s[i].data <= t.data <==> i < k))
  {
    var k := PontoInsercao(s, t.data);
    var r := Inserir(s, t);
    assert r == s[..k] + [t] + s[k..];
    assert r[..k] == s[..k];
    assert r[k + 1..] == s[k..];
    Posteriores(s, t.data);
  }

  /** In a sorted list the elements from the insertion point on are exactly
      those dated later than `d`. */
  lemma Posteriores(s: seq<Transacao>, d: int)
    requires Ordenada(s)
    ensures forall i :: 0 <= i < |s| ==> (s[i].data <= d <==> i < PontoInsercao(s, d))
  {
    var k := PontoInsercao(s, d);
    forall i | 0 <= i < |s|
      ensures s[i].data <= d <==> i < k
    {
      if k <= i {
        assert s[k].data <= s[i].data;
      }
    }
  }

  /** Inserting into a sorted list keeps it sorted. */
  lemma InserirOrdenada(s: seq<Transacao>, t: Transacao)
    requires Ordenada(s)
    ensures Ordenada(Inserir(s, t))
  {
    var k := PontoInsercao(s, t.data);
    var r := Inserir(s, t);
    assert forall i :: 0 <= i < k ==> r[i] == s[i];
    assert forall i :: k < i < |r| ==> r[i] == s[i - 1];
    forall i, j | 0 <= i < j < |r|
      ensures r[i].data <= r[j].data
    {
      if j < k {
        assert r[i] == s[i] && r[j] == s[j];
      } else if j == k {
        assert r[i] == s[i];
      } else if i < k {
        assert r[i] == s[i] && r[j] == s[j - 1];
      } else if i == k {
        assert r[j] == s[j - 1];
        assert s[k].data <= s[j - 1].data;
      } else {
        assert r[i] == s[i - 1] && r[j] == s[j - 1];
      }
    }
  }

  /** The sort yields a sorted permutation of its input. */
  lemma {:induction false} OrdenarOrdena(s: seq<Transacao>)
    ensures Ordenada(Ordenar(s))
    ensures multiset(Ordenar(s)) == multiset(s)
  {
    if s != [] {
      var init, last := s[..|s| - 1], s[|s| - 1];
      OrdenarOrdena(init);
      assert Ordenar(s) == Inserir(Ordenar(init), last);
      InserirOrdenada(Ordenar(init), last);
      InserirConteudo(Ordenar(init), last);
      assert s == init + [last];
    }
  }

  /** A list that is already sorted is left as it is: after
      `adicionarTransacao` the sort in `calcularPosicoes` reorders nothing. */
  lemma {:induction false} OrdenarOrdenada(s: seq<Transacao>)
    requires Ordenada(s)
    ensures Ordenar(s) == s
  {
    if s != [] {
      var init, last := s[..|s| - 1], s[|s| - 1];
      assert s == init + [last];
      forall i | 0 <= i < |init|
        ensures init[i].data <= last.data
      {
        assert init[i] == s[i];
      }
      assert Ordenada(init) by {
        forall i, j | 0 <= i < j < |init|
          ensures init[i].data <= init[j].data
        {
          assert init[i] == s[i] && init[j] == s[j];
        }
      }
      OrdenarOrdenada(init);
      InserirNoFim(init, last);
    }
  }

  lemma {:induction false} DoDiaConcat(a: seq<Transacao>, b: seq<Transacao>, d: int)
    ensures DoDia(a + b, d) == DoDia(a, d) + DoDia(b, d)
  {
    if b != [] {
      var init := b[..|b| - 1];
      assert (a + b)[..|a + b| - 1] == a + init;
      DoDiaConcat(a, init, d);
    } else {
      assert a + b == a;
    }
  }

  /** Inserting into a sorted list appends the new transaction to the end of
      its own day and changes no other day. */
  lemma InserirDoDia(s: seq<Transacao>, t: Transacao, d: int)
    requires Ordenada(s)
    ensures DoDia(Inserir(s, t), d) == DoDia(s, d) + (if t.data == d then [t] else [])
  {
    var k := PontoInsercao(s, t.data);
    var a, b := s[..k], s[k..];
    assert Inserir(s, t) == a + [t] + b;
    if t.data == d {
      DoDiaAposPonto(s, d);
    }
    DoDiaMeio(a, t, b, d);
    assert a + b == s;
  }

  /** In a sorted list nothing after the insertion point of day `d` falls on
      day `d`. */
  lemma DoDiaAposPonto(s: seq<Transacao>, d: int)
    requires Ordenada(s)
    ensures DoDia(s[PontoInsercao(s, d)..], d) == []
  {
    var k := PontoInsercao(s, d);
    var b := s[k..];
    forall i | 0 <= i < |b|
      ensures b[i].data > d
    {
      assert b[i] == s[k + i];
      assert s[k].data <= s[k + i].data;
    }
    DoDiaPosteriores(b, d);
  }

  /** The day lists of a list with one element spliced in. */
  lemma DoDiaMeio(a: seq<Transacao>, t: Transacao, b: seq<Transacao>, d: int)
    requires t.data == d ==> DoDia(b, d) == []
    ensures DoDia(a + [t] + b, d) == DoDia(a + b, d) + (if t.data == d then [t] else [])
  {
    DoDiaConcat(a + [t], b, d);
    DoDiaConcat(a, [t], d);
    DoDiaConcat(a, b, d);
    assert [t][..0] == [];
    var da, db := DoDia(a, d), DoDia(b, d);
    assert DoDia(a + [t] + b, d) == (da + DoDia([t], d)) + db;
    if t.data == d {
      assert DoDia(a + [t] + b, d) == da + [t];
      assert DoDia(a + b, d) == da + [];
    } else {
      assert DoDia([t], d) == [];
      assert DoDia(a + b, d) + [] == DoDia(a + b, d);
    }
  }

  lemma {:induction false} DoDiaPosteriores(s: seq<Transacao>, d: int)
    requires forall i :: 0 <= i < |s| ==> s[i].data > d
    ensures DoDia(s, d) == []
  {
    if s != [] {
      DoDiaPosteriores(s[..|s| - 1], d);
    }
  }

  /** Stability: the sort keeps the transactions of each day in their
      original relative order. Together with OrdenarOrdena this pins the
      sort down completely. */
  lemma {:induction false} OrdenarEstavel(s: seq<Transacao>, d: int)
    ensures DoDia(Ordenar(s), d) == DoDia(s, d)
  {
    if s != [] {
      var init, last := s[..|s| - 1], s[|s| - 1];
      OrdenarEstavel(init, d);
      OrdenarOrdena(init);
      InserirDoDia(Ordenar(init), last, d);
    }
  }
}
